=== FILE: README.md ===
# Football-field booking: a verified model of the booking core

This project models the core of a web application for renting football and futsal
fields (`lapangan`) by the hour. Users book a field for a time slot on a day. Admins
manage the fields, confirm or cancel bookings, and see every booking.

The model covers five parts:

- **Booking service.** It checks a requested slot against the existing pending and
  confirmed bookings (`checkAvailability`). It creates a booking at a price derived from
  the duration. It lists, looks up, updates, cancels and deletes bookings.
- **Field service.** It lists fields with a status filter and a case-insensitive name
  search, newest first. It looks up, creates, updates, toggles and deletes fields.
  Deleting a field cascades to its bookings.
- **Helpers.** `formatTime` and `calculateDuration`.
- **Request schemas.** Zod validation rules for bookings, fields, booking status,
  registration, login and profile updates.
- **Authentication and routes.** Reading the bearer token, the admin-only gate, listing
  scope for non-admins, and who may cancel.

The database is an immutable value `Store.Db`. It holds the two tables as sequences,
plus their auto-increment counters. `Store.Valid` states the rules the tables keep:

- primary keys are positive, distinct and below the counter;
- every booking refers to an existing field;
- no double booking: no two pending or confirmed bookings of one field on one day
  overlap as half-open intervals.

Each service operation is a function returning `Result<_, ServiceError>`. The errors
carry the source's exact Indonesian messages (`Store.Message`). They occur in the
order the source checks them.

Times of day are minutes since midnight. Dates are day numbers. Prices are exact
`real`s.

Some inputs the source gets from a library are parameters of the model:

- the JWT verifier;
- the e-mail and URL validators;
- the date parser;
- the current day;
- the creation timestamp.

Two facts about the code that the model keeps as written:

- **Availability test.** The query of `checkAvailability` is commented as looking for
  bookings that overlap the requested time (`bookingService.ts:16`). Its interval test is
  three sub-cases (`bookingService.ts:23-39`), not the plain half-open overlap test
  `S < e && s < E`. The two agree on proper intervals, which
  `Availability.ThreeCaseIsOverlap` proves. They differ on empty or reversed intervals,
  which `Availability.ImproperIntervalsSelected` shows. The model keeps the three cases.
  They catch every real overlap (`Availability.OverlapCaught`), so creation keeps the
  no-double-booking rule without any assumption on stored intervals.
- **Status transitions.** `updateBooking` (`bookingService.ts:167-189`) applies no
  transition rule: any status can be written over any other
  (`BookingService.UpdateAcceptsAnyStatus`).

## Model

| member | source | states |
|---|---|---|
| Times.ParseTime | src/lib/validators/schemas.ts:37-38 | A string is read as a time exactly when it matches `^([0-1]?[0-9]\|2[0-3]):[0-5][0-9]$`. The value is 60 times the digits before the colon plus the two digits after it, and is below 1440 minutes. |
| Times.ParseTimeString | src/lib/validators/schemas.ts:37-38 | Every time of day has a zero-padded `HH:mm` rendering. The pattern accepts it and it reads back as the same minutes. |
| Times.TimeStringOfParse | src/lib/validators/schemas.ts:37-38 | Converse round trip: an accepted five-character string is exactly the zero-padded rendering of its value. |
| Times.OneDigitHourAccepted | src/lib/validators/schemas.ts:37 | The optional first hour digit: `9:05` is accepted as 545 minutes. |
| Times.PaddedHourAccepted | src/lib/validators/schemas.ts:37 | `09:00` is read as 540 minutes. |
| Times.RejectedTimeExamples | src/lib/validators/schemas.ts:37 | Hour `24` and a one-digit minute are refused. |
| Times.FormatTime | src/lib/utils/helpers.ts:11-17 | An eight-character value becomes its five-character prefix. Any other value is returned unchanged. The result is never eight characters long. |
| Times.FormatTimeIdempotent | src/lib/utils/helpers.ts:11-17 | Formatting twice gives the same as formatting once. |
| Times.FormatDbTime | src/lib/utils/helpers.ts:11-17 | A stored `HH:mm:ss` TIME value formats to the `HH:mm` string that reads back to the same time of day. |
| Times.Duration | src/lib/utils/helpers.ts:24-27 | Duration in hours: positive iff the end is later, zero iff the times are equal, and 60 times it is the difference in minutes. |
| Times.HourMinutePart | src/lib/utils/helpers.ts:21-22 | The part of a time string that `split(':')` hands to the arithmetic: a prefix of the string. A string with at most one colon is kept whole. Otherwise the part holds exactly one colon and is followed in the string by the second one. |
| Times.CalculateDuration | src/lib/utils/helpers.ts:20-28 | Defined exactly when the hour-and-minute parts of both strings are clock times. Then 60 times the result is the end minus the start in minutes, so it is positive iff the end time is later. |
| Times.HourMinuteOfRenderings | src/lib/utils/helpers.ts:21-22 | Both renderings of a time, `HH:mm` and the TIME column's `HH:mm:ss`, have `HH:mm` as their hour-and-minute part. |
| Times.DurationOfRenderings | src/lib/utils/helpers.ts:20-28 | Between two times of day, the duration is the same whether they are given as `HH:mm` or as `HH:mm:ss`: the difference in hours. |
| Times.DurationAdditive | src/lib/utils/helpers.ts:20-28 | Durations of consecutive intervals add up. |
| Times.Price | src/lib/services/bookingService.ts:86-93 | At a positive rate the price is positive iff the interval is non-empty. It is never negative for a non-negative rate and ordered times. 60 times the price is the difference in minutes times the hourly rate. |
| Times.PriceAdditive | src/lib/services/bookingService.ts:86-93 | Prices of consecutive intervals at one rate add up. |
| Times.SamplePrices | src/lib/database/seed.js:157-175 | The two seeded bookings' totals follow from their two-hour durations and their fields' rates: 300000 and 400000. A further, non-seeded example: a half hour at 200000 costs 100000. |
| Store.LookupLapangan | src/lib/services/bookingService.ts:66-69 | A field found is in the table and has the requested id. None is found iff no row has that id. |
| Availability.CheckAvailability | src/lib/services/bookingService.ts:8-60 | Available iff the conflict list is empty iff no booking is selected. Every selected booking is reported, and only selected bookings are. |
| Availability.Conflicts | src/lib/services/bookingService.ts:47-55 | The conflict list contains exactly the id and times of the selected bookings. |
| Availability.ThreeCaseFilter | src/lib/services/bookingService.ts:23-39 | The stored-interval test of the query selects every overlapping pair. Whatever else it selects involves an empty or reversed interval. |
| Availability.Blocks | src/lib/services/bookingService.ts:17-45 | The query's where-clause: it selects every booking that really collides with the request. For proper intervals it selects exactly those. |
| Availability.OverlapCaught | src/lib/services/bookingService.ts:23-39 | Every half-open overlap is caught by one of the three cases, for any intervals. |
| Availability.ThreeCaseIsOverlap | src/lib/services/bookingService.ts:23-39 | For proper intervals the three cases hold iff the intervals overlap. |
| Availability.ImproperIntervalsSelected | src/lib/services/bookingService.ts:23-39 | An empty stored interval, or a reversed request, is selected although the intervals share no minute. |
| Availability.BackToBackExamples | src/lib/services/bookingService.ts:23-39 | Bookings that only touch do not conflict. A half-hour or one-hour overlap does. |
| Availability.AvailableIffNoCollision | src/lib/services/bookingService.ts:17-50 | With proper intervals, a slot is available iff no active, non-excluded booking of that field and day overlaps it. |
| Availability.AvailableMeansNoCollision | src/lib/services/bookingService.ts:17-50 | For any intervals, an available slot overlaps no active, non-excluded booking of that field and day. |
| Availability.IgnoredBookingChangesNothing | src/lib/services/bookingService.ts:17-22 | Adding one of these bookings leaves the answer unchanged: cancelled or completed, on another field or day, or excluded by id. |
| Availability.AppendIgnored | src/lib/services/bookingService.ts:47 | Appending a booking the query does not select leaves the conflict list unchanged. |
| Availability.ExcludeOnlyConflict | src/lib/services/bookingService.ts:42-45 | Excluding a non-zero id that is the only colliding booking makes the slot available. |
| BookingService.CreateBooking | src/lib/services/bookingService.ts:63-100 | Refuses, each exactly in its case and in this order: an unknown field, an inactive field, a taken slot, a negative total. It succeeds exactly when none of these applies, and then it stores a `pending` booking under the next id, at the duration times the hourly rate, with the request's fields, appended to the table. |
| BookingService.InlinePriceIsDuration | src/lib/services/bookingService.ts:87-93 | The service's inline minute arithmetic equals `calculateDuration` times the hourly rate. |
| BookingService.CreatePreservesValid | src/lib/services/bookingService.ts:63-100 | A successful creation keeps ids unique and below the counter, keeps the field reference, and adds no double booking. |
| BookingService.GetBookingById | src/lib/services/bookingService.ts:147-164 | Fails with "Booking tidak ditemukan" iff no row has that id. Otherwise it returns a row of the table with that id. |
| BookingService.CreatedIsFound | src/lib/services/bookingService.ts:96-110 | A booking just created is found by its id, exactly as stored. |
| BookingService.CancelBooking | src/lib/services/bookingService.ts:192-216 | Not found, then not owner and not admin, then not pending or confirmed: each error holds exactly in its case. It succeeds exactly when the booking exists, the caller is its owner or an admin, and it is pending or confirmed. Then the row becomes `cancelled` and nothing else changes. |
| BookingService.CancelPreservesValid | src/lib/services/bookingService.ts:192-216 | A cancellation keeps every store rule. |
| BookingService.ApplyPatch | src/lib/services/bookingService.ts:175 | Each column given in the patch (date, start, end, total, status, note) takes the patch's value, and each column not given keeps its own. Id, user and field never change. A status-only patch changes only the status. |
| BookingService.UpdateBooking | src/lib/services/bookingService.ts:167-189 | Refuses exactly an unknown id, and a negative `total_harga` (the column rule of `models/Booking.ts`). It succeeds exactly when neither applies. Then it overwrites the given columns of that row only, and both counters and the field table are unchanged. |
| BookingService.UpdateAcceptsAnyStatus | src/lib/services/bookingService.ts:167-189 | Any status can be set on an existing booking, including moving out of `cancelled` or `completed`. |
| BookingService.UpdateCanDoubleBook | src/lib/services/bookingService.ts:167-189 | A valid store and one status update that leaves it with a double booking. |
| BookingService.CheckedUpdateBooking | src/lib/services/bookingService.ts:42-45 | The update re-checks the slot, excluding the booking itself. It refuses exactly when the updated booking would be active over another active booking. Otherwise its outcome is that of `UpdateBooking`. It succeeds exactly when the booking exists, the total is not negative, and an active result finds its slot free. |
| BookingService.CheckedUpdatePreservesValid | src/lib/services/bookingService.ts:42-45 | The checked update keeps every store rule. |
| BookingService.CheckedUpdateRefusesDoubleBooking | src/lib/services/bookingService.ts:42-45 | On the store of `UpdateCanDoubleBook`, the checked update refuses with the slot-taken error. |
| BookingService.DeleteBooking | src/lib/services/bookingService.ts:219-232 | Fails iff no row has the id. Otherwise one row fewer, the fields untouched, and no new rows. |
| BookingService.DeleteRemovesExactly | src/lib/services/bookingService.ts:219-232 | With unique ids, a booking remains iff it was there and has another id. |
| BookingService.DeletePreservesValid | src/lib/services/bookingService.ts:219-232 | A deletion keeps every store rule. |
| BookingService.GetAllBookings | src/lib/services/bookingService.ts:117-144 | The result holds exactly the bookings matching every truthy filter, each as often as in the table. It is ordered by date, then start time, latest first. |
| BookingService.ListAllIsPermutation | src/lib/services/bookingService.ts:124-129 | With no filter, the listing is a reordering of the whole table. |
| LapanganService.NameMatches | src/lib/services/lapanganService.ts:20-24 | The `LIKE '%q%'` name filter holds iff the case-folded query occurs at some position of the case-folded name. A matching query is never longer than the name. |
| LapanganService.ContainsIffOccurs | src/lib/services/lapanganService.ts:20-24 | The name search succeeds iff the query occurs at some position of the name. |
| LapanganService.NameSearchExample | src/lib/services/lapanganService.ts:20-24 | "futsal" finds "Lapangan Futsal A" regardless of letter case. |
| LapanganService.GetAllLapangan | src/lib/services/lapanganService.ts:7-35 | The result holds exactly the fields matching the status and non-empty name filters, ordered by creation time, newest first. |
| LapanganService.ListingCounts | src/lib/services/lapanganService.ts:26-29 | Each matching field appears as often as in the table. |
| LapanganService.NewestListedFirst | src/lib/services/lapanganService.ts:28 | A matching field strictly newer than every other is listed first. |
| LapanganService.CreatedListedFirst | src/lib/services/lapanganService.ts:53-60 | A field created after all others is listed first by any filter it passes. |
| LapanganService.GetLapanganById | src/lib/services/lapanganService.ts:38-50 | Fails with "Lapangan tidak ditemukan" iff no row has the id. Otherwise it returns that row. |
| LapanganService.CreateLapangan | src/lib/services/lapanganService.ts:53-60 | Refuses exactly a negative hourly rate. Otherwise it stores the field under the next id with the given columns. Photos, facilities and status that are given are stored; those not given take the table defaults: no photos, no facilities, `aktif`. |
| LapanganService.CreatePreservesValid | src/lib/services/lapanganService.ts:53-60 | A field creation keeps every store rule. |
| LapanganService.ApplyPatch | src/lib/services/lapanganService.ts:71 | Each column given in the patch takes the patch's value. Each column not given keeps its value, and so do the id and creation time. The empty patch changes nothing. |
| LapanganService.UpdateLapangan | src/lib/services/lapanganService.ts:63-76 | Refuses exactly an unknown id and a negative hourly rate, and succeeds exactly when neither applies. Then the field with that id becomes the patched row. Every other field, the bookings and both counters are unchanged, and the store rules still hold. |
| LapanganService.UpdatedIsFound | src/lib/services/lapanganService.ts:63-76 | After a successful update, looking up the field gives the patched row, and every other id is looked up as before. |
| LapanganService.Toggled | src/lib/services/lapanganService.ts:103 | The new status always differs from the old one. |
| LapanganService.ToggleStatus | src/lib/services/lapanganService.ts:95-110 | Fails iff the id is unknown. Otherwise the field with that id becomes the same row with its status flipped. Every other field, the bookings and both counters are unchanged, and the store rules still hold. |
| LapanganService.ToggleTwiceRestores | src/lib/services/lapanganService.ts:95-110 | Toggling twice gives back the original store. |
| LapanganService.DeleteLapangan | src/lib/services/lapanganService.ts:79-92 | Fails iff the id is unknown. Otherwise one field fewer, every remaining field was in the table, and a booking remains iff it was there and belongs to another field (the cascade). |
| LapanganService.DeleteRemovesField | src/lib/services/lapanganService.ts:79-92 | With unique ids, a field remains iff it was there and has another id. |
| LapanganService.DeletePreservesValid | src/lib/models/Booking.ts:39-47 | Deleting a field, with the cascade on `lapangan_id`, keeps every store rule: no booking is left referring to the removed field. |
| Auth.GetUserFromRequest | src/lib/middleware/auth.ts:33-48 | Succeeds iff the header is present, starts with `Bearer ` and the verifier accepts the rest. The payload is the verifier's. Every failure is "Token tidak valid". |
| Auth.BearerRoundTrip | src/lib/middleware/auth.ts:37-42 | A header `Bearer <token>` yields exactly the verifier's answer for that token. |
| Auth.OtherSchemesRefused | src/lib/middleware/auth.ts:37-39 | A lower-case scheme, a missing space and a missing header are all refused. |
| Auth.RequireAdmin | src/lib/middleware/auth.ts:51-55 | Passes iff the role is `admin`. Otherwise the error is the access-denied error. |
| Auth.AdminGate | src/app/api/lapangan/route.ts:32-33 | An admin-only handler proceeds iff the token verifies and the payload's role is admin, and it then carries that payload. A bad token gives the token error; a verified non-admin gives the access error. |
| Auth.AdminGateOutcome | src/lib/middleware/auth.ts:33-55 | An admin-only route proceeds iff the token verifies to an admin. A bad token gives the token error; a non-admin gives the access error. |
| Routes.ListBookings | src/app/api/booking/route.ts:24-30 | The listing a caller receives holds only bookings of the table. For a non-admin with a non-zero id it holds only their own bookings. |
| Routes.ScopeFilters | src/app/api/booking/route.ts:24-27 | A non-admin's listing filter always carries their own user id. An admin's filters are kept. |
| Routes.NonAdminSeesOwnBookings | src/app/api/booking/route.ts:24-30 | A non-admin with a non-zero id sees exactly their own bookings that pass the other filters. |
| Routes.AdminSeesFiltered | src/app/api/booking/route.ts:24-30 | An admin sees exactly what the filters select. |
| Routes.CancelRequest | src/app/api/booking/cancel/route.ts:16-26 | A missing or zero `booking_id` is refused. Otherwise the cancellation runs, as admin exactly when the role is `admin`. |
| Routes.OnlyOwnerOrAdminCancels | src/app/api/booking/cancel/route.ts:21-26 | A successful cancellation is made by an admin or by the booking's owner. |
| Schemas.ParseBookingStatus | src/lib/validators/schemas.ts:52-54 | Accepts exactly the four status names. |
| Schemas.BookingStatusRoundTrip | src/lib/validators/schemas.ts:52-54 | Status names and statuses convert into each other in both directions. |
| Schemas.ParseFieldStatus | src/lib/validators/schemas.ts:25 | Accepts exactly `aktif` and `nonaktif`. |
| Schemas.FieldStatusRoundTrip | src/lib/validators/schemas.ts:25 | Field status names and statuses convert into each other in both directions. |
| Schemas.ValidateBooking | src/lib/validators/schemas.ts:29-49 | Accepts iff all hold: positive field id, a date not before today, two times of the pattern, end strictly after start. An accepted value has start < end < 1440 and the request's fields. |
| Schemas.EmptyIntervalRejected | src/lib/validators/schemas.ts:40-49 | Equal start and end times are refused. |
| Schemas.PastDateRejected | src/lib/validators/schemas.ts:31-36 | A date before today is refused. |
| Schemas.AcceptedTimesRoundTrip | src/lib/validators/schemas.ts:37-38 | Accepted times, stored as TIME and formatted back, read as the same minutes. |
| Schemas.AcceptedBookingPriced | src/lib/validators/schemas.ts:40-49 | A booking created from an accepted request has a proper interval, and a positive price at a positive rate. |
| Schemas.AcceptedCreationKeepsProperIntervals | src/lib/validators/schemas.ts:40-49 | Creating bookings only from accepted requests keeps every active interval proper, the condition under which availability is exact. |
| Schemas.ValidateLapangan | src/lib/validators/schemas.ts:19-26 | Accepts iff the name and rate are present and every present key is valid: name of 3 or more, rate > 0, URLs, known status. An accepted value carries the request's fields. |
| Schemas.ValidateLapanganPatch | src/lib/validators/schemas.ts:19-26 | The partial form used for updates: accepts iff every present key satisfies its rule. An accepted patch carries the request's values, and a given status name becomes that status. |
| Schemas.FullImpliesPartial | src/lib/validators/schemas.ts:19-26 | Whatever the full schema accepts, the partial one accepts. |
| Schemas.AcceptedLapanganStored | src/lib/validators/schemas.ts:22 | The schema is stricter than the table's rate rule. An accepted field is always created. An accepted patch fails only on an unknown id. |
| Schemas.RegisterValid | src/lib/validators/schemas.ts:4-10 | `registerSchema`: an e-mail, a name of 3 or more, a password of 6 or more, a phone number of 10 or more, and an optional role `user` or `admin`. |
| Schemas.LoginValid | src/lib/validators/schemas.ts:13-16 | `loginSchema`: an e-mail and a non-empty password. |
| Schemas.ProfileValid | src/lib/validators/schemas.ts:57-60 | `updateProfileSchema`: the name and phone rules of registration, each applied only when the key is present. |
| Schemas.RegisterImpliesOthers | src/lib/validators/schemas.ts:4-10 | A valid registration is also a valid login and a valid profile update. |
| Schemas.LengthBoundaries | src/lib/validators/schemas.ts:4-10 | Minimum lengths are inclusive (3, 6, 10), and an unknown role is refused. |

## Left out

- Database and ORM behaviour beyond the table rules: relation includes (`user`, `lapangan`), `updatedAt` timestamps, `DECIMAL(10,2)` rounding of prices, and the user table.
- Deleting a user and its cascade to bookings: the user table is not part of this model.
- Concurrency: two requests can pass `checkAvailability` before either inserts. Each operation here is one atomic step on the store.
- Token signing and verification (`AuthService.verifyToken`), password hashing, and the e-mail and URL validators. They are parameters of the model.
- Calendar handling: `new Date(...)`, `date-fns` formatting, and the server's time zone. Dates are day numbers; the current day and the date parser are parameters.
- Times.CalculateDuration: gives `None` where the source's `Number` conversion would give `NaN` or a coerced value: an hour or minute piece that is not of the clock pattern, such as `9:5`, ` 9:00` or an empty piece. `HH:mm:ss` input is modelled: the seconds are ignored, as in the source.
- The SQL comparison of `TIME` columns with request strings: it is modelled as a comparison of minutes, which matches for strings of the booking pattern.
- LapanganService.NameMatches: `LIKE` wildcards `%` and `_` inside the query, and case folding beyond ASCII letters, are not modelled.
- The range of the `DECIMAL(10,2)` columns `total_harga` and `harga_per_jam` (`models/Booking.ts:60-66`, `models/Lapangan.ts:34-40`): MySQL refuses values of 100,000,000 or more, such as three hours at 50,000,000 an hour. `BookingService.CreateBooking` and `LapanganService.CreateLapangan` accept them, because prices are unbounded `real`s.
- The length limit of `nama STRING(100)` (`models/Lapangan.ts:26-29`): the database refuses longer names, while `LapanganService.CreateLapangan` and `LapanganService.UpdateLapangan` accept them.
- Status filters outside the enum: the listing routes pass any query string as the status filter (`app/api/booking/route.ts:15,20`, `app/api/lapangan/route.ts:12,16`), and the source then lists nothing. The model's filters carry an enum status, so that input cannot be expressed.
- String length units: JavaScript's `.length`, used by `formatTime` and by Zod's `.min(n)`, counts UTF-16 code units, while `|s|` counts characters. The two differ only for characters outside the Basic Multilingual Plane.
- Sort ties: rows with equal sort keys come in no specified order. The listing contracts state order and contents, not the order of ties.
- Schemas: only acceptance is modelled, not Zod's list of issues and their messages. Bodies of the wrong JSON type are not modelled. A non-integer `lapangan_id` is not modelled: the field id is an integer.
- BookingService.UpdateBooking: the patch cannot change `id`, `user_id` or `lapangan_id`, which the source's partial type would allow.
- `formatDate`, `formatRupiah`, `generateRandomString`, `authMiddleware`, the response helpers and every page component are outside the booking core.

## Findings

| source | as written | input that shows it | evidently intended | confidence | as-written member | corrected member |
|---|---|---|---|---|---|---|
| src/lib/services/bookingService.ts:167-189 | `updateBooking` writes the patched booking without checking availability. Yet `checkAvailability` takes an excluded booking id, commented as being for updates (lines 42-45). | Field 1 has a confirmed booking 1 and a cancelled booking 2, both for 09:00-11:00 on the same day. Update booking 2 to `pending`. | Re-check the slot with the booking itself excluded, and refuse with "Jadwal sudah dibooking, silakan pilih waktu lain". | medium; not executed | BookingService.UpdateCanDoubleBook | BookingService.CheckedUpdatePreservesValid |

=== FILE: auth.dfy ===
/** Request authentication: reading the bearer token from the `Authorization` header
    and the administrator gate. Token signatures and expiry are checked by a verifier
    passed in as a parameter. */
module Auth {
  import opened Wrappers

  /** The claims a valid token carries. */
  datatype JwtPayload = JwtPayload(userId: nat, email: string, role: string)

  datatype AuthError = TokenInvalid | AccessDenied

  function Message(e: AuthError): string {
    match e
    case TokenInvalid => "Token tidak valid"
    case AccessDenied => "Akses ditolak. Hanya admin yang dapat mengakses"
  }

  const BearerPrefix: string := "Bearer "

  /** `getUserFromRequest`: the header must be present and begin with `Bearer `; the
      rest of it, from the eighth character on, is handed to `verify`. Every failure,
      a missing header as much as a rejected token, is reported as an invalid token. */
  function GetUserFromRequest(header: Option<string>, verify: string -> Option<JwtPayload>)
    : (r: Result<JwtPayload, AuthError>)
    ensures r.Success? <==>
              && header.Some?
              && BearerPrefix <= header.value
              && verify(header.value[|BearerPrefix|..]).Some?
    ensures r.Success? ==> r.value == verify(header.value[|BearerPrefix|..]).value
    ensures r.Failure? ==> r.error == TokenInvalid
  {
    if header.None? || !(BearerPrefix <= header.value) then Failure(TokenInvalid)
    else match verify(header.value[7..])
      case None => Failure(TokenInvalid)
      case Some(p) => Success(p)
  }

  /** A header built from a token yields exactly what the verifier says about that token. */
  lemma BearerRoundTrip(token: string, verify: string -> Option<JwtPayload>)
    ensures GetUserFromRequest(Some(BearerPrefix + token), verify) ==
              match verify(token)
              case None => Failure(TokenInvalid)
              case Some(p) => Success(p)
  {
    assert (BearerPrefix + token)[..|BearerPrefix|] == BearerPrefix;
    assert (BearerPrefix + token)[|BearerPrefix|..] == token;
  }

  /** The prefix is case-sensitive and needs its space: other schemes are refused
      before the verifier is consulted. */
  lemma OtherSchemesRefused(token: string, verify: string -> Option<JwtPayload>)
    ensures GetUserFromRequest(Some("bearer " + token), verify) == Failure(TokenInvalid)
    ensures GetUserFromRequest(Some("Bearer"), verify) == Failure(TokenInvalid)
    ensures GetUserFromRequest(None, verify) == Failure(TokenInvalid)
  {
    assert ("bearer " + token)[0] == 'b';
  }

  /** The administrator role. */
  predicate IsAdmin(role: string) {
    role == "admin"
  }

  /** `requireAdmin`: passes exactly for the `admin` role. */
  function RequireAdmin(user: JwtPayload): (r: Result<(), AuthError>)
    ensures r.Success? <==> IsAdmin(user.role)
    ensures r.Failure? ==> r.error == AccessDenied
  {
    if user.role != "admin" then Failure(AccessDenied) else Success(())
  }

  /** An administrator-only route runs exactly when the token verifies to an administrator;
      otherwise the token error comes first and the role error second. */
  function AdminGate(header: Option<string>, verify: string -> Option<JwtPayload>)
    : (r: Result<JwtPayload, AuthError>)
    ensures var u := GetUserFromRequest(header, verify);
            && (r.Success? <==> u.Success? && IsAdmin(u.value.role))
            && (r.Success? ==> r.value == u.value)
            && (r == Failure(TokenInvalid) <==> u.Failure?)
            && (r == Failure(AccessDenied) <==> u.Success? && !IsAdmin(u.value.role))
  {
    match GetUserFromRequest(header, verify)
    case Failure(e) => Failure(e)
    case Success(user) =>
      match RequireAdmin(user)
      case Failure(e) => Failure(e)
      case Success(_) => Success(user)
  }

  lemma AdminGateOutcome(token: string, verify: string -> Option<JwtPayload>)
    ensures var r := AdminGate(Some(BearerPrefix + token), verify);
            && (r.Success? <==> verify(token).Some? && IsAdmin(verify(token).value.role))
            && (r == Failure(TokenInvalid) <==> verify(token).None?)
            && (r == Failure(AccessDenied) <==> verify(token).Some? && !IsAdmin(verify(token).value.role))
  {
    BearerRoundTrip(token, verify);
  }
}

=== FILE: availability.dfy ===
/** `checkAvailability`: which active bookings stand in the way of a requested slot. */
module Availability {
  import opened Wrappers
  import opened Times
  import opened Store

  /** A request for a slot; `exclude` is the optional booking id left out of the check. */
  datatype SlotQuery = SlotQuery(
    lapanganId: nat,
    tanggal: Date,
    jamMulai: Minutes,
    jamSelesai: Minutes,
    exclude: Option<nat>)

  /** The identifying fields of a conflicting booking. */
  datatype ConflictInfo = ConflictInfo(id: nat, jamMulai: Minutes, jamSelesai: Minutes)

  datatype Availability = Availability(available: bool, conflicts: seq<ConflictInfo>)

  function Info(b: Booking): ConflictInfo {
    ConflictInfo(b.id, b.jamMulai, b.jamSelesai)
  }

  /** The interval test of the query, as three alternatives on the stored interval
      [S, E) against the requested [s, e): the request starts inside the stored one,
      ends inside it, or covers it. */
  predicate ThreeCaseFilter(S: Minutes, E: Minutes, s: Minutes, e: Minutes)
    ensures Overlaps(S, E, s, e) ==> ThreeCaseFilter(S, E, s, e)
    ensures ThreeCaseFilter(S, E, s, e) ==> Overlaps(S, E, s, e) || E <= S || e <= s
  {
    || (S <= s && E > s)
    || (S < e && E >= e)
    || (S >= s && E <= e)
  }

  /** The exclusion applies only to a truthy id: 0 and an absent id exclude nothing. */
  predicate Excluded(b: Booking, exclude: Option<nat>) {
    exclude.Some? && exclude.value != 0 && b.id == exclude.value
  }

  /** `b` is selected by the availability query. */
  predicate Blocks(b: Booking, q: SlotQuery)
    ensures Collides(b, q) ==> Blocks(b, q)
    ensures b.jamMulai < b.jamSelesai && q.jamMulai < q.jamSelesai ==> (Blocks(b, q) <==> Collides(b, q))
  {
    && b.lapanganId == q.lapanganId
    && b.tanggal == q.tanggal
    && IsActive(b.status)
    && !Excluded(b, q.exclude)
    && ThreeCaseFilter(b.jamMulai, b.jamSelesai, q.jamMulai, q.jamSelesai)
  }

  /** `b` really collides with the request under half-open interval semantics. */
  predicate Collides(b: Booking, q: SlotQuery) {
    && b.lapanganId == q.lapanganId
    && b.tanggal == q.tanggal
    && IsActive(b.status)
    && !Excluded(b, q.exclude)
    && Overlaps(b.jamMulai, b.jamSelesai, q.jamMulai, q.jamSelesai)
  }

  /** The conflict list: one entry per selected booking, in store order. */
  function Conflicts(bs: seq<Booking>, q: SlotQuery): (cs: seq<ConflictInfo>)
    ensures |cs| <= |bs|
    ensures forall k :: 0 <= k < |bs| && Blocks(bs[k], q) ==> Info(bs[k]) in cs
    ensures forall c :: c in cs ==> exists k :: 0 <= k < |bs| && Blocks(bs[k], q) && Info(bs[k]) == c
  {
    if |bs| == 0 then []
    else
      var rest := Conflicts(bs[1..], q);
      assert forall k :: 1 <= k < |bs| ==> bs[k] == bs[1..][k - 1];
      (if Blocks(bs[0], q) then [Info(bs[0])] else []) + rest
  }

  /** `checkAvailability`: the slot is available exactly when no booking is selected. */
  function CheckAvailability(bs: seq<Booking>, q: SlotQuery): (r: Availability)
    ensures r.available <==> |r.conflicts| == 0
    ensures r.available <==> forall k :: 0 <= k < |bs| ==> !Blocks(bs[k], q)
    ensures forall k :: 0 <= k < |bs| && Blocks(bs[k], q) ==> Info(bs[k]) in r.conflicts
    ensures forall c :: c in r.conflicts ==> exists k :: 0 <= k < |bs| && Blocks(bs[k], q) && Info(bs[k]) == c
  {
    var cs := Conflicts(bs, q);
    assert |cs| > 0 ==> cs[0] in cs;
    Availability(|cs| == 0, cs)
  }

  // ---------------------------------------------------------------------------
  // The three-case test is half-open interval overlap.

  /** Every real overlap is caught by one of the three cases, whatever the intervals. */
  lemma OverlapCaught(S: Minutes, E: Minutes, s: Minutes, e: Minutes)
    ensures Overlaps(S, E, s, e) ==> ThreeCaseFilter(S, E, s, e)
  {
  }

  /** For proper intervals the three cases say exactly that the intervals overlap. */
  lemma ThreeCaseIsOverlap(S: Minutes, E: Minutes, s: Minutes, e: Minutes)
    requires S < E && s < e
    ensures ThreeCaseFilter(S, E, s, e) <==> Overlaps(S, E, s, e)
  {
  }

  /** Without proper intervals the cases select more: an empty stored interval at the
      request's start, and a reversed request, are selected though they share no minute. */
  lemma ImproperIntervalsSelected()
    ensures ThreeCaseFilter(600, 600, 600, 660) && !Overlaps(600, 600, 600, 660)
    ensures ThreeCaseFilter(540, 600, 590, 500) && !Overlaps(540, 600, 590, 500)
  {
  }

  /** Back-to-back bookings do not conflict; a half-hour shift does. */
  lemma BackToBackExamples()
    ensures !ThreeCaseFilter(540, 600, 600, 660)
    ensures !ThreeCaseFilter(540, 600, 480, 540)
    ensures ThreeCaseFilter(540, 600, 570, 630)
    ensures ThreeCaseFilter(540, 660, 600, 720)
    ensures !ThreeCaseFilter(540, 660, 660, 720)
  {
  }

  /** Stored intervals are proper for every booking that can be selected. */
  ghost predicate ProperActiveIntervals(bs: seq<Booking>) {
    forall k :: 0 <= k < |bs| && IsActive(bs[k].status) ==> bs[k].jamMulai < bs[k].jamSelesai
  }

  /** With proper intervals, the query selects exactly the colliding bookings, so the
      slot is available exactly when nothing collides with it. */
  lemma AvailableIffNoCollision(bs: seq<Booking>, q: SlotQuery)
    requires ProperActiveIntervals(bs)
    requires q.jamMulai < q.jamSelesai
    ensures CheckAvailability(bs, q).available <==> forall k :: 0 <= k < |bs| ==> !Collides(bs[k], q)
  {
    forall k | 0 <= k < |bs|
      ensures Blocks(bs[k], q) <==> Collides(bs[k], q)
    {
      if IsActive(bs[k].status) {
        ThreeCaseIsOverlap(bs[k].jamMulai, bs[k].jamSelesai, q.jamMulai, q.jamSelesai);
      }
    }
  }

  /** Unconditionally, an available slot collides with nothing. */
  lemma AvailableMeansNoCollision(bs: seq<Booking>, q: SlotQuery, k: nat)
    requires CheckAvailability(bs, q).available
    requires k < |bs|
    ensures !Collides(bs[k], q)
  {
    OverlapCaught(bs[k].jamMulai, bs[k].jamSelesai, q.jamMulai, q.jamSelesai);
  }

  /** A booking that is cancelled or completed, on another field or day, or excluded by
      id, never changes the answer: adding it to the store leaves the result as it was. */
  lemma {:induction false} IgnoredBookingChangesNothing(bs: seq<Booking>, b: Booking, q: SlotQuery)
    requires || !IsActive(b.status)
             || b.lapanganId != q.lapanganId
             || b.tanggal != q.tanggal
             || Excluded(b, q.exclude)
    ensures CheckAvailability([b] + bs, q) == CheckAvailability(bs, q)
    ensures CheckAvailability(bs + [b], q) == CheckAvailability(bs, q)
  {
    assert ([b] + bs)[1..] == bs;
    AppendIgnored(bs, b, q);
  }

  lemma {:induction false} AppendIgnored(bs: seq<Booking>, b: Booking, q: SlotQuery)
    requires !Blocks(b, q)
    ensures Conflicts(bs + [b], q) == Conflicts(bs, q)
  {
    if |bs| == 0 {
      assert ([] + [b])[1..] == [];
    } else {
      assert (bs + [b])[1..] == bs[1..] + [b];
      AppendIgnored(bs[1..], b, q);
    }
  }

  /** Excluding the id of the only colliding booking makes the slot available. */
  lemma ExcludeOnlyConflict(bs: seq<Booking>, q: SlotQuery, x: nat)
    requires x != 0
    requires forall k :: 0 <= k < |bs| && Blocks(bs[k], q.(exclude := None)) ==> bs[k].id == x
    ensures CheckAvailability(bs, q.(exclude := Some(x))).available
  {
  }
}

=== FILE: booking_service.dfy ===
/** `BookingService`: creation with availability check and pricing, cancellation,
    administrative update and delete, lookup and filtered listing. */
module BookingService {
  import opened Wrappers
  import opened Times
  import opened Store
  import opened Availability
  import Seqs
  import Sorting

  /** What the caller hands to `createBooking`: a booking without its id. The caller's
      `totalHarga` and `status` are overridden. */
  datatype NewBooking = NewBooking(
    userId: nat,
    lapanganId: nat,
    tanggal: Date,
    jamMulai: Minutes,
    jamSelesai: Minutes,
    totalHarga: real,
    status: BookingStatus,
    catatan: Option<string>)

  /** The slot a new booking asks for, checked with no exclusion. */
  function RequestedSlot(data: NewBooking): SlotQuery {
    SlotQuery(data.lapanganId, data.tanggal, data.jamMulai, data.jamSelesai, None)
  }

  /** `createBooking`: the field must exist and be active and the slot free; the booking
      is stored as pending at the duration-based price under the next id. */
  function CreateBooking(db: Db, data: NewBooking): (r: Result<Saved<Booking>, ServiceError>)
    ensures r == Failure(LapanganNotFound) <==> LookupLapangan(db, data.lapanganId).None?
    ensures r == Failure(LapanganInactive) <==>
              LookupLapangan(db, data.lapanganId).Some? && LookupLapangan(db, data.lapanganId).value.status != Aktif
    ensures r == Failure(SlotTaken) <==>
              && LookupLapangan(db, data.lapanganId).Some?
              && LookupLapangan(db, data.lapanganId).value.status == Aktif
              && !CheckAvailability(db.bookings, RequestedSlot(data)).available
    ensures r == Failure(ValidationMin("total_harga")) <==>
              && LookupLapangan(db, data.lapanganId).Some?
              && LookupLapangan(db, data.lapanganId).value.status == Aktif
              && CheckAvailability(db.bookings, RequestedSlot(data)).available
              && Price(data.jamMulai, data.jamSelesai, LookupLapangan(db, data.lapanganId).value.hargaPerJam) < 0.0
    ensures r.Success? <==>
              && LookupLapangan(db, data.lapanganId).Some?
              && LookupLapangan(db, data.lapanganId).value.status == Aktif
              && CheckAvailability(db.bookings, RequestedSlot(data)).available
              && Price(data.jamMulai, data.jamSelesai, LookupLapangan(db, data.lapanganId).value.hargaPerJam) >= 0.0
    ensures r.Success? ==>
              var b := r.value.row;
              && b.id == db.nextBookingId
              && b.status == Pending
              && b.totalHarga == Price(data.jamMulai, data.jamSelesai, LookupLapangan(db, data.lapanganId).value.hargaPerJam)
              && b.totalHarga >= 0.0
              && b.userId == data.userId && b.lapanganId == data.lapanganId && b.tanggal == data.tanggal
              && b.jamMulai == data.jamMulai && b.jamSelesai == data.jamSelesai && b.catatan == data.catatan
              && r.value.db == db.(bookings := db.bookings + [b], nextBookingId := db.nextBookingId + 1)
  {
    match LookupLapangan(db, data.lapanganId)
    case None => Failure(LapanganNotFound)
    case Some(lapangan) =>
      if lapangan.status != Aktif then Failure(LapanganInactive)
      else if !CheckAvailability(db.bookings, RequestedSlot(data)).available then Failure(SlotTaken)
      else
        var durasiMenit := data.jamSelesai as int - data.jamMulai as int;
        var totalHarga := (durasiMenit as real / 60.0) * lapangan.hargaPerJam;
        if totalHarga < 0.0 then Failure(ValidationMin("total_harga"))
        else
          var b := Booking(db.nextBookingId, data.userId, data.lapanganId, data.tanggal,
                           data.jamMulai, data.jamSelesai, totalHarga, Pending, data.catatan);
          Success(Saved(db.(bookings := db.bookings + [b], nextBookingId := db.nextBookingId + 1), b))
  }

  /** The inline price of `createBooking` is `calculateDuration` times the hourly rate. */
  lemma InlinePriceIsDuration(start: Minutes, end: Minutes, rate: real)
    requires start < MinutesPerDay && end < MinutesPerDay
    ensures CalculateDuration(TimeString(start), TimeString(end)) == Some(Duration(start, end))
    ensures ((end as int - start as int) as real / 60.0) * rate == CalculateDuration(TimeString(start), TimeString(end)).value * rate
  {
    DurationOfRenderings(start, end);
  }

  /** A successful creation keeps every integrity rule of the store. */
  lemma CreatePreservesValid(db: Db, data: NewBooking)
    requires Valid(db)
    requires CreateBooking(db, data).Success?
    ensures Valid(CreateBooking(db, data).value.db)
  {
    var saved := CreateBooking(db, data).value;
    var b := saved.row;
    var bs := saved.db.bookings;
    assert bs == db.bookings + [b];
    AppendKeepsKeys(db.bookings, b, BookingId, db.nextBookingId);
    forall k | 0 <= k < |db.bookings|
      ensures NoClash(db.bookings[k], b)
    {
      AvailableMeansNoCollision(db.bookings, RequestedSlot(data), k);
    }
    Seqs.AppendPairwise(db.bookings, b, NoClash);
    forall k | 0 <= k < |bs|
      ensures FindLapangan(saved.db, bs[k].lapanganId).Some?
    {
      if k < |db.bookings| {
        assert bs[k] == db.bookings[k];
      }
    }
  }

  // ---------------------------------------------------------------------------
  // Lookup.

  /** `getBookingById`. */
  function GetBookingById(db: Db, id: nat): (r: Result<Booking, ServiceError>)
    ensures r.Failure? <==> forall k :: 0 <= k < |db.bookings| ==> db.bookings[k].id != id
    ensures r.Failure? ==> r.error == BookingNotFound
    ensures r.Success? ==> r.value in db.bookings && r.value.id == id
  {
    match FindBooking(db, id)
    case None => Failure(BookingNotFound)
    case Some(i) => Success(db.bookings[i])
  }

  /** A booking just created is found by its id with the fields it was stored with. */
  lemma CreatedIsFound(db: Db, data: NewBooking)
    requires Valid(db)
    requires CreateBooking(db, data).Success?
    ensures var saved := CreateBooking(db, data).value;
            GetBookingById(saved.db, saved.row.id) == Success(saved.row)
  {
    var saved := CreateBooking(db, data).value;
    CreatePreservesValid(db, data);
    var bs := saved.db.bookings;
    assert bs[|bs| - 1] == saved.row;
    Seqs.FindIndexUnique(bs, saved.row.id, BookingId, |bs| - 1);
  }

  // ---------------------------------------------------------------------------
  // Cancellation.

  /** `cancelBooking`: the owner or an administrator may cancel a pending or confirmed
      booking. Ownership is checked before the status. */
  function CancelBooking(db: Db, id: nat, userId: nat, isAdmin: bool): (r: Result<Saved<Booking>, ServiceError>)
    ensures r == Failure(BookingNotFound) <==> GetBookingById(db, id).Failure?
    ensures r == Failure(CancelForbidden) <==>
              GetBookingById(db, id).Success? && !isAdmin && GetBookingById(db, id).value.userId != userId
    ensures r == Failure(NotCancellable) <==>
              && GetBookingById(db, id).Success?
              && (isAdmin || GetBookingById(db, id).value.userId == userId)
              && !IsActive(GetBookingById(db, id).value.status)
    ensures r.Success? <==>
              && GetBookingById(db, id).Success?
              && (isAdmin || GetBookingById(db, id).value.userId == userId)
              && IsActive(GetBookingById(db, id).value.status)
    ensures r.Success? ==>
              var before := GetBookingById(db, id).value;
              && IsActive(before.status)
              && r.value.row == before.(status := Cancelled)
              && r.value.db.lapangan == db.lapangan
              && r.value.db.nextLapanganId == db.nextLapanganId
              && r.value.db.nextBookingId == db.nextBookingId
              && |r.value.db.bookings| == |db.bookings|
              && (Seqs.UniqueKeys(db.bookings, BookingId) ==>
                    forall k :: 0 <= k < |db.bookings| ==>
                      r.value.db.bookings[k] == if db.bookings[k].id == id then r.value.row else db.bookings[k])
  {
    match FindBooking(db, id)
    case None => Failure(BookingNotFound)
    case Some(i) =>
      var b := db.bookings[i];
      if !isAdmin && b.userId != userId then Failure(CancelForbidden)
      else if !IsActive(b.status) then Failure(NotCancellable)
      else
        var c := b.(status := Cancelled);
        Success(Saved(db.(bookings := db.bookings[i := c]), c))
  }

  /** The store after a cancellation: the one row found rewritten with status `cancelled`. */
  lemma CancelledStore(db: Db, id: nat, userId: nat, isAdmin: bool)
    requires CancelBooking(db, id, userId, isAdmin).Success?
    ensures var i := FindBooking(db, id).value;
            CancelBooking(db, id, userId, isAdmin).value.db
              == db.(bookings := db.bookings[i := db.bookings[i].(status := Cancelled)])
  {
  }

  /** A successful cancellation keeps every integrity rule of the store. */
  lemma CancelPreservesValid(db: Db, id: nat, userId: nat, isAdmin: bool)
    requires Valid(db)
    requires CancelBooking(db, id, userId, isAdmin).Success?
    ensures Valid(CancelBooking(db, id, userId, isAdmin).value.db)
  {
    var i := FindBooking(db, id).value;
    var c := db.bookings[i].(status := Cancelled);
    var d := db.(bookings := db.bookings[i := c]);
    CancelledStore(db, id, userId, isAdmin);
    ReplaceKeepsKeys(db.bookings, i, c, BookingId, db.nextBookingId);
    forall k | 0 <= k < i
      ensures NoClash(db.bookings[k], c)
    {
    }
    forall k | i < k < |db.bookings|
      ensures NoClash(c, db.bookings[k])
    {
    }
    Seqs.ReplacePairwise(db.bookings, i, c, NoClash);
    SameReferencesKeepFieldsExist(db, d);
    assert Valid(d);
  }

  // ---------------------------------------------------------------------------
  // Administrative update.

  /** The columns an update may set; an absent column keeps its value. */
  datatype BookingPatch = BookingPatch(
    tanggal: Option<Date>,
    jamMulai: Option<Minutes>,
    jamSelesai: Option<Minutes>,
    totalHarga: Option<real>,
    status: Option<BookingStatus>,
    catatan: Option<Option<string>>)

  /** The patch the status route sends: only the status column. */
  function StatusPatch(s: BookingStatus): BookingPatch {
    BookingPatch(None, None, None, None, Some(s), None)
  }

  /** The booking with the given columns overwritten: a column given in the patch takes
      the patch's value, every other column keeps its own. */
  function ApplyPatch(b: Booking, p: BookingPatch): (r: Booking)
    ensures r.id == b.id && r.userId == b.userId && r.lapanganId == b.lapanganId
    ensures r.tanggal == if p.tanggal.Some? then p.tanggal.value else b.tanggal
    ensures r.jamMulai == if p.jamMulai.Some? then p.jamMulai.value else b.jamMulai
    ensures r.jamSelesai == if p.jamSelesai.Some? then p.jamSelesai.value else b.jamSelesai
    ensures r.totalHarga == if p.totalHarga.Some? then p.totalHarga.value else b.totalHarga
    ensures r.status == if p.status.Some? then p.status.value else b.status
    ensures r.catatan == if p.catatan.Some? then p.catatan.value else b.catatan
    ensures p == StatusPatch(b.status) ==> r == b
    ensures p.status.Some? && p == StatusPatch(p.status.value) ==> r == b.(status := p.status.value)
  {
    b.(tanggal := Overwrite(b.tanggal, p.tanggal),
       jamMulai := Overwrite(b.jamMulai, p.jamMulai),
       jamSelesai := Overwrite(b.jamSelesai, p.jamSelesai),
       totalHarga := Overwrite(b.totalHarga, p.totalHarga),
       status := Overwrite(b.status, p.status),
       catatan := Overwrite(b.catatan, p.catatan))
  }

  /** `updateBooking`: overwrites the given columns of an existing booking. No status
      transition rule and no availability re-check is applied; only the column rule
      `total_harga >= 0` of the table is enforced. */
  function UpdateBooking(db: Db, id: nat, p: BookingPatch): (r: Result<Saved<Booking>, ServiceError>)
    ensures r == Failure(BookingNotFound) <==> GetBookingById(db, id).Failure?
    ensures r == Failure(ValidationMin("total_harga")) <==>
              GetBookingById(db, id).Success? && p.totalHarga.Some? && p.totalHarga.value < 0.0
    ensures r.Success? <==>
              GetBookingById(db, id).Success? && (p.totalHarga.None? || p.totalHarga.value >= 0.0)
    ensures r.Success? ==>
              && r.value.row == ApplyPatch(GetBookingById(db, id).value, p)
              && r.value.db.lapangan == db.lapangan
              && r.value.db.nextLapanganId == db.nextLapanganId
              && r.value.db.nextBookingId == db.nextBookingId
              && |r.value.db.bookings| == |db.bookings|
              && (Seqs.UniqueKeys(db.bookings, BookingId) ==>
                    forall k :: 0 <= k < |db.bookings| ==>
                      r.value.db.bookings[k] == if db.bookings[k].id == id then r.value.row else db.bookings[k])
  {
    match FindBooking(db, id)
    case None => Failure(BookingNotFound)
    case Some(i) =>
      if p.totalHarga.Some? && p.totalHarga.value < 0.0 then Failure(ValidationMin("total_harga"))
      else
        var u := ApplyPatch(db.bookings[i], p);
        Success(Saved(db.(bookings := db.bookings[i := u]), u))
  }

  /** Any status can be set on an existing booking, including leaving `cancelled`
      or `completed`. */
  lemma UpdateAcceptsAnyStatus(db: Db, id: nat, s: BookingStatus)
    requires GetBookingById(db, id).Success?
    ensures UpdateBooking(db, id, StatusPatch(s)).Success?
    ensures UpdateBooking(db, id, StatusPatch(s)).value.row == GetBookingById(db, id).value.(status := s)
  {
  }

  /** A store with one field, a confirmed booking of 09:00-11:00 and a cancelled
      booking of the same slot. */
  function SlotReuseStore(): (db: Db)
    ensures Valid(db)
  {
    var f := Lapangan(1, "Lapangan Futsal A", None, 150000.0, [], [], Aktif, 0);
    var live := Booking(1, 2, 1, 20, 540, 660, 300000.0, Confirmed, None);
    var gone := Booking(2, 2, 1, 20, 540, 660, 300000.0, Cancelled, None);
    var db := Db([f], [live, gone], 2, 3);
    assert FindLapangan(db, 1) == Some(0);
    assert BookingId(live) != BookingId(gone);
    forall i, j | 0 <= i < j < |db.bookings|
      ensures Seqs.KeyDiffers(BookingId)(db.bookings[i], db.bookings[j])
      ensures NoClash(db.bookings[i], db.bookings[j])
    {
      assert db.bookings[i] == live && db.bookings[j] == gone;
    }
    db
  }

  /** Update does not keep the no-double-booking rule: moving the cancelled booking back
      to pending over the live booking of the same slot double-books it. */
  lemma UpdateCanDoubleBook()
    ensures var db := SlotReuseStore();
            && Valid(db)
            && UpdateBooking(db, 2, StatusPatch(Pending)).Success?
            && !Valid(UpdateBooking(db, 2, StatusPatch(Pending)).value.db)
  {
    var db := SlotReuseStore();
    assert FindBooking(db, 2) == Some(1) by {
      assert Seqs.FindIndex(db.bookings[1..], 2, BookingId) == Some(0);
    }
    var after := UpdateBooking(db, 2, StatusPatch(Pending)).value.db;
    assert after.bookings[0] == db.bookings[0];
    assert Clash(after.bookings[0], after.bookings[1]);
  }

  /** The slot a booking would hold after an update, checked against every booking
      except itself. */
  function UpdatedSlot(u: Booking, id: nat): SlotQuery {
    SlotQuery(u.lapanganId, u.tanggal, u.jamMulai, u.jamSelesai, Some(id))
  }

  /** The update with the availability check that the query's exclusion parameter is
      meant for: an update that would leave the booking active over another active
      booking of the same slot is refused; every other outcome is that of `UpdateBooking`. */
  function CheckedUpdateBooking(db: Db, id: nat, p: BookingPatch): (r: Result<Saved<Booking>, ServiceError>)
    ensures r == Failure(BookingNotFound) <==> GetBookingById(db, id).Failure?
    ensures r == Failure(SlotTaken) <==>
              && GetBookingById(db, id).Success?
              && IsActive(ApplyPatch(GetBookingById(db, id).value, p).status)
              && !CheckAvailability(db.bookings, UpdatedSlot(ApplyPatch(GetBookingById(db, id).value, p), id)).available
    ensures r != Failure(SlotTaken) ==> r == UpdateBooking(db, id, p)
    ensures r.Success? <==>
              && GetBookingById(db, id).Success?
              && (p.totalHarga.None? || p.totalHarga.value >= 0.0)
              && (IsActive(ApplyPatch(GetBookingById(db, id).value, p).status) ==>
                    CheckAvailability(db.bookings, UpdatedSlot(ApplyPatch(GetBookingById(db, id).value, p), id)).available)
  {
    match FindBooking(db, id)
    case None => Failure(BookingNotFound)
    case Some(i) =>
      var u := ApplyPatch(db.bookings[i], p);
      if IsActive(u.status) && !CheckAvailability(db.bookings, UpdatedSlot(u, id)).available then
        Failure(SlotTaken)
      else UpdateBooking(db, id, p)
  }

  /** The checked update keeps every integrity rule of the store. */
  lemma CheckedUpdatePreservesValid(db: Db, id: nat, p: BookingPatch)
    requires Valid(db)
    requires CheckedUpdateBooking(db, id, p).Success?
    ensures Valid(CheckedUpdateBooking(db, id, p).value.db)
  {
    var i := FindBooking(db, id).value;
    var u := ApplyPatch(db.bookings[i], p);
    var d := db.(bookings := db.bookings[i := u]);
    CheckedUpdateStore(db, id, p);
    ReplaceKeepsKeys(db.bookings, i, u, BookingId, db.nextBookingId);
    FreeSlotNoClash(db.bookings, i, u, id);
    Seqs.ReplacePairwise(db.bookings, i, u, NoClash);
    SameReferencesKeepFieldsExist(db, d);
    assert Valid(d);
  }

  /** The store after a successful checked update: the one row found, patched. */
  lemma CheckedUpdateStore(db: Db, id: nat, p: BookingPatch)
    requires CheckedUpdateBooking(db, id, p).Success?
    ensures var i := FindBooking(db, id).value;
            && (IsActive(ApplyPatch(db.bookings[i], p).status) ==>
                  CheckAvailability(db.bookings, UpdatedSlot(ApplyPatch(db.bookings[i], p), id)).available)
            && CheckedUpdateBooking(db, id, p).value.db
                 == db.(bookings := db.bookings[i := ApplyPatch(db.bookings[i], p)])
  {
  }

  /** A row put in place of row `i` whose slot is free apart from row `i` itself clashes
      with no other row. */
  lemma FreeSlotNoClash(bs: seq<Booking>, i: nat, u: Booking, id: nat)
    requires Seqs.UniqueKeys(bs, BookingId)
    requires i < |bs| && bs[i].id == id && id != 0
    requires IsActive(u.status) ==> CheckAvailability(bs, UpdatedSlot(u, id)).available
    ensures forall k :: 0 <= k < i ==> NoClash(bs[k], u)
    ensures forall k :: i < k < |bs| ==> NoClash(u, bs[k])
  {
    forall k | 0 <= k < |bs| && k != i && IsActive(u.status)
      ensures !Collides(bs[k], UpdatedSlot(u, id)) && bs[k].id != id
    {
      AvailableMeansNoCollision(bs, UpdatedSlot(u, id), k);
      var a, c := if k < i then k else i, if k < i then i else k;
      assert Seqs.KeyDiffers(BookingId)(bs[a], bs[c]);
      assert BookingId(bs[a]) != BookingId(bs[c]);
    }
  }

  /** On the store that the unchecked update double-books, the checked update refuses. */
  lemma CheckedUpdateRefusesDoubleBooking()
    ensures CheckedUpdateBooking(SlotReuseStore(), 2, StatusPatch(Pending)) == Failure(SlotTaken)
  {
    var db := SlotReuseStore();
    assert FindBooking(db, 2) == Some(1) by {
      assert Seqs.FindIndex(db.bookings[1..], 2, BookingId) == Some(0);
    }
    var u := ApplyPatch(db.bookings[1], StatusPatch(Pending));
    assert Blocks(db.bookings[0], UpdatedSlot(u, 2));
  }

  // ---------------------------------------------------------------------------
  // Delete.

  /** `deleteBooking`: removes the booking with that id. */
  function DeleteBooking(db: Db, id: nat): (r: Result<Db, ServiceError>)
    ensures r.Failure? <==> GetBookingById(db, id).Failure?
    ensures r.Failure? ==> r.error == BookingNotFound
    ensures r.Success? ==>
              && r.value.lapangan == db.lapangan
              && r.value.nextLapanganId == db.nextLapanganId
              && r.value.nextBookingId == db.nextBookingId
              && |r.value.bookings| == |db.bookings| - 1
              && forall b :: b in r.value.bookings ==> b in db.bookings
  {
    match FindBooking(db, id)
    case None => Failure(BookingNotFound)
    case Some(i) =>
      var rest := Seqs.RemoveAt(db.bookings, i);
      assert forall b :: b in rest ==> b in db.bookings by {
        forall b | b in rest ensures b in db.bookings {
          var k :| 0 <= k < |rest| && rest[k] == b;
          if k >= i { assert rest[k] == db.bookings[k + 1]; }
        }
      }
      Success(db.(bookings := rest))
  }

  /** With unique ids, delete removes exactly the booking with that id and keeps all
      others. */
  lemma DeleteRemovesExactly(db: Db, id: nat, b: Booking)
    requires Seqs.UniqueKeys(db.bookings, BookingId)
    requires DeleteBooking(db, id).Success?
    ensures b in DeleteBooking(db, id).value.bookings <==> b in db.bookings && b.id != id
  {
    var i := FindBooking(db, id).value;
    assert DeleteBooking(db, id).value.bookings == Seqs.RemoveAt(db.bookings, i);
    Seqs.RemoveAtElements(db.bookings, i, b);
    if exists k :: 0 <= k < |db.bookings| && k != i && db.bookings[k] == b {
      var k :| 0 <= k < |db.bookings| && k != i && db.bookings[k] == b;
      assert Seqs.KeyDiffers(BookingId)(db.bookings[if k < i then k else i], db.bookings[if k < i then i else k]);
    }
    if b in db.bookings && b.id != id {
      var k :| 0 <= k < |db.bookings| && db.bookings[k] == b;
      assert k != i;
    }
  }

  /** A successful delete keeps every integrity rule of the store. */
  lemma DeletePreservesValid(db: Db, id: nat)
    requires Valid(db)
    requires DeleteBooking(db, id).Success?
    ensures Valid(DeleteBooking(db, id).value)
  {
    var i := FindBooking(db, id).value;
    var after := DeleteBooking(db, id).value;
    assert after.bookings == Seqs.RemoveAt(db.bookings, i);
    RemoveKeepsKeys(db.bookings, i, BookingId, db.nextBookingId);
    Seqs.RemoveAtPairwise(db.bookings, i, NoClash);
    forall k | 0 <= k < |after.bookings|
      ensures FindLapangan(after, after.bookings[k].lapanganId).Some?
    {
      assert after.bookings[k] == db.bookings[if k < i then k else k + 1];
    }
  }

  // ---------------------------------------------------------------------------
  // Listing.

  /** The optional filters of `getAllBookings`. */
  datatype BookingFilters = BookingFilters(
    userId: Option<nat>,
    lapanganId: Option<nat>,
    status: Option<BookingStatus>,
    tanggal: Option<Date>)

  /** An id filter applies only when it is truthy: an absent id or 0 filters nothing. */
  predicate Given(id: Option<nat>) {
    id.Some? && id.value != 0
  }

  /** `b` satisfies every filter that is given. */
  predicate MatchesFilters(f: BookingFilters, b: Booking) {
    && (Given(f.userId) ==> b.userId == f.userId.value)
    && (Given(f.lapanganId) ==> b.lapanganId == f.lapanganId.value)
    && (f.status.Some? ==> b.status == f.status.value)
    && (f.tanggal.Some? ==> b.tanggal == f.tanggal.value)
  }

  function FilterFor(f: BookingFilters): Booking -> bool {
    b => MatchesFilters(f, b)
  }

  /** The listing order: date, then start time. */
  function ListingKey(b: Booking): Sorting.Key {
    Sorting.Key(b.tanggal, b.jamMulai)
  }

  /** `getAllBookings`: the bookings matching every given filter, newest date first and,
      within a date, latest start first. */
  function GetAllBookings(db: Db, f: BookingFilters): (r: seq<Booking>)
    ensures forall b :: b in r <==> b in db.bookings && MatchesFilters(f, b)
    ensures forall b :: multiset(r)[b] == if MatchesFilters(f, b) then multiset(db.bookings)[b] else 0
    ensures Sorting.SortedDesc(r, ListingKey)
  {
    var matching := Seqs.Filter(db.bookings, FilterFor(f));
    var r := Sorting.SortDesc(matching, ListingKey);
    assert forall b :: b in r <==> b in matching by {
      forall b ensures b in r <==> b in matching {
        Sorting.SameElements(r, matching, b);
      }
    }
    r
  }

  /** Listing with no filter returns the whole table. */
  lemma ListAllIsPermutation(db: Db)
    ensures multiset(GetAllBookings(db, BookingFilters(None, None, None, None))) == multiset(db.bookings)
  {
    var r := GetAllBookings(db, BookingFilters(None, None, None, None));
    assert forall b :: multiset(r)[b] == multiset(db.bookings)[b];
  }
}

=== FILE: lapangan_service.dfy ===
/** `LapanganService`: the field inventory — listing with status and name filters,
    lookup, creation, update, cascading delete and the active/inactive toggle. */
module LapanganService {
  import opened Wrappers
  import opened Store
  import Seqs
  import Sorting

  // ---------------------------------------------------------------------------
  // Name search: `nama LIKE '%q%'` under a case-insensitive collation.

  function LowerAscii(c: char): char {
    if 'A' <= c <= 'Z' then (c as int + 32) as char else c
  }

  /** The string with ASCII letters folded to lower case. */
  function Fold(s: string): (r: string)
    ensures |r| == |s|
    ensures forall k :: 0 <= k < |s| ==> r[k] == LowerAscii(s[k])
  {
    seq(|s|, k requires 0 <= k < |s| => LowerAscii(s[k]))
  }

  /** `q` occurs in `s`, searched from the left. */
  predicate Contains(s: string, q: string)
    decreases |s|
  {
    q <= s || (|s| > 0 && Contains(s[1..], q))
  }

  /** `q` occurs in `s` starting at position `i`. */
  predicate OccursAt(s: string, q: string, i: nat) {
    i + |q| <= |s| && s[i..i + |q|] == q
  }

  /** The search finds `q` exactly when `q` occurs at some position of `s`. */
  lemma {:induction false} ContainsIffOccurs(s: string, q: string)
    ensures Contains(s, q) <==> exists i: nat :: OccursAt(s, q, i)
  {
    if q <= s {
      assert OccursAt(s, q, 0);
    } else if |s| > 0 {
      ContainsIffOccurs(s[1..], q);
      if Contains(s[1..], q) {
        var i: nat :| OccursAt(s[1..], q, i);
        assert s[1..][i..i + |q|] == s[i + 1..i + 1 + |q|];
        assert OccursAt(s, q, i + 1);
      }
      if exists i: nat :: OccursAt(s, q, i) {
        var i: nat :| OccursAt(s, q, i);
        assert i != 0;
        assert s[1..][i - 1..i - 1 + |q|] == s[i..i + |q|];
        assert OccursAt(s[1..], q, i - 1);
      }
    }
  }

  /** The name filter: a case-insensitive substring match on ASCII letters. */
  predicate NameMatches(nama: string, q: string)
    ensures NameMatches(nama, q) <==> exists i: nat :: OccursAt(Fold(nama), Fold(q), i)
    ensures NameMatches(nama, q) ==> |q| <= |nama|
  {
    ContainsIffOccurs(Fold(nama), Fold(q));
    Contains(Fold(nama), Fold(q))
  }

  // ---------------------------------------------------------------------------
  // Listing.

  datatype LapanganFilters = LapanganFilters(status: Option<FieldStatus>, nama: Option<string>)

  /** `l` passes every given filter; an empty name filter is not applied. */
  predicate MatchesFilters(f: LapanganFilters, l: Lapangan) {
    && (f.status.Some? ==> l.status == f.status.value)
    && (f.nama.Some? && |f.nama.value| > 0 ==> NameMatches(l.nama, f.nama.value))
  }

  function FilterFor(f: LapanganFilters): Lapangan -> bool {
    l => MatchesFilters(f, l)
  }

  /** Newest first: the creation timestamp is the sort key. */
  function NewestFirst(l: Lapangan): Sorting.Key {
    Sorting.Key(l.createdAt, 0)
  }

  /** `getAllLapangan`: the fields passing the filters, newest first. */
  function GetAllLapangan(db: Db, f: LapanganFilters): (r: seq<Lapangan>)
    ensures forall l :: l in r <==> l in db.lapangan && MatchesFilters(f, l)
    ensures forall i, j :: 0 <= i < j < |r| ==> r[i].createdAt >= r[j].createdAt
  {
    var matching := Seqs.Filter(db.lapangan, FilterFor(f));
    var r := Sorting.SortDesc(matching, NewestFirst);
    assert forall l :: l in r <==> l in matching by {
      forall l ensures l in r <==> l in matching {
        Sorting.SameElements(r, matching, l);
      }
    }
    assert Sorting.SortedDesc(r, NewestFirst);
    forall i, j | 0 <= i < j < |r|
      ensures r[i].createdAt >= r[j].createdAt
    {
      assert Sorting.AtLeast(NewestFirst(r[i]), NewestFirst(r[j]));
    }
    r
  }

  /** The listing holds each matching row as many times as the table does: it is a
      reordering of the filtered table. */
  lemma ListingCounts(db: Db, f: LapanganFilters, l: Lapangan)
    ensures multiset(GetAllLapangan(db, f))[l] == if MatchesFilters(f, l) then multiset(db.lapangan)[l] else 0
  {
    var matching := Seqs.Filter(db.lapangan, FilterFor(f));
    assert GetAllLapangan(db, f) == Sorting.SortDesc(matching, NewestFirst);
    assert FilterFor(f)(l) == MatchesFilters(f, l);
  }

  /** A search on part of a name, in another letter case, finds the field. */
  lemma NameSearchExample()
    ensures NameMatches("Lapangan Futsal A", "futsal")
  {
    var s := Fold("Lapangan Futsal A");
    assert s[9..15] == Fold("futsal");
    assert OccursAt(s, Fold("futsal"), 9);
    ContainsIffOccurs(s, Fold("futsal"));
  }

  // ---------------------------------------------------------------------------
  // Lookup.

  /** `getLapanganById`. */
  function GetLapanganById(db: Db, id: nat): (r: Result<Lapangan, ServiceError>)
    ensures r.Failure? <==> forall k :: 0 <= k < |db.lapangan| ==> db.lapangan[k].id != id
    ensures r.Failure? ==> r.error == LapanganNotFound
    ensures r.Success? ==> r.value in db.lapangan && r.value.id == id
  {
    match LookupLapangan(db, id)
    case None => Failure(LapanganNotFound)
    case Some(l) => Success(l)
  }

  // ---------------------------------------------------------------------------
  // Creation.

  /** The data handed to `createLapangan`; absent columns take the table defaults. */
  datatype NewLapangan = NewLapangan(
    nama: string,
    deskripsi: Option<string>,
    hargaPerJam: real,
    fotoUrl: Option<seq<string>>,
    fasilitas: Option<seq<string>>,
    status: Option<FieldStatus>)

  /** `createLapangan`: stores the field under the next id, stamped with `now`; the
      table rejects a negative hourly rate. */
  function CreateLapangan(db: Db, data: NewLapangan, now: int): (r: Result<Saved<Lapangan>, ServiceError>)
    ensures r.Failure? <==> data.hargaPerJam < 0.0
    ensures r.Failure? ==> r.error == ValidationMin("harga_per_jam")
    ensures r.Success? ==>
              var l := r.value.row;
              && l.id == db.nextLapanganId
              && l.nama == data.nama && l.deskripsi == data.deskripsi && l.hargaPerJam == data.hargaPerJam
              && l.status == (if data.status.Some? then data.status.value else Aktif)
              && l.fotoUrl == (if data.fotoUrl.Some? then data.fotoUrl.value else [])
              && l.fasilitas == (if data.fasilitas.Some? then data.fasilitas.value else [])
              && l.createdAt == now
              && r.value.db == db.(lapangan := db.lapangan + [l], nextLapanganId := db.nextLapanganId + 1)
  {
    if data.hargaPerJam < 0.0 then Failure(ValidationMin("harga_per_jam"))
    else
      var l := Lapangan(db.nextLapanganId, data.nama, data.deskripsi, data.hargaPerJam,
                        Overwrite([], data.fotoUrl), Overwrite([], data.fasilitas),
                        Overwrite(Aktif, data.status), now);
      Success(Saved(db.(lapangan := db.lapangan + [l], nextLapanganId := db.nextLapanganId + 1), l))
  }

  /** A successful creation keeps every integrity rule of the store. */
  lemma CreatePreservesValid(db: Db, data: NewLapangan, now: int)
    requires Valid(db)
    requires CreateLapangan(db, data, now).Success?
    ensures Valid(CreateLapangan(db, data, now).value.db)
  {
    var saved := CreateLapangan(db, data, now).value;
    AppendKeepsKeys(db.lapangan, saved.row, LapanganId, db.nextLapanganId);
    forall k | 0 <= k < |db.bookings|
      ensures FindLapangan(saved.db, db.bookings[k].lapanganId).Some?
    {
      Seqs.FindIndexAppend(db.lapangan, saved.row, db.bookings[k].lapanganId, LapanganId);
    }
  }

  /** A field created after every other one is listed first when it passes the filters. */
  lemma CreatedListedFirst(db: Db, data: NewLapangan, now: int, f: LapanganFilters)
    requires CreateLapangan(db, data, now).Success?
    requires forall k :: 0 <= k < |db.lapangan| ==> db.lapangan[k].createdAt < now
    requires MatchesFilters(f, CreateLapangan(db, data, now).value.row)
    ensures var saved := CreateLapangan(db, data, now).value;
            var r := GetAllLapangan(saved.db, f);
            |r| > 0 && r[0] == saved.row
  {
    var saved := CreateLapangan(db, data, now).value;
    var row := saved.row;
    assert saved.db.lapangan == db.lapangan + [row];
    forall l | l in saved.db.lapangan
      ensures l == row || l.createdAt < row.createdAt
    {
      if l != row {
        assert l in db.lapangan;
        var k :| 0 <= k < |db.lapangan| && db.lapangan[k] == l;
      }
    }
    NewestListedFirst(saved.db, f, row);
  }

  /** A listed row strictly newer than every other row of the table is listed first. */
  lemma NewestListedFirst(db: Db, f: LapanganFilters, row: Lapangan)
    requires row in db.lapangan && MatchesFilters(f, row)
    requires forall l :: l in db.lapangan ==> l == row || l.createdAt < row.createdAt
    ensures |GetAllLapangan(db, f)| > 0 && GetAllLapangan(db, f)[0] == row
  {
    NewestIsFirst(GetAllLapangan(db, f), row);
  }

  /** In a list ordered newest first, a row strictly newer than all others comes first. */
  lemma NewestIsFirst(r: seq<Lapangan>, row: Lapangan)
    requires forall i, j :: 0 <= i < j < |r| ==> r[i].createdAt >= r[j].createdAt
    requires row in r
    requires forall l :: l in r ==> l == row || l.createdAt < row.createdAt
    ensures r[0] == row
  {
    var j :| 0 <= j < |r| && r[j] == row;
    assert r[0] in r;
    assert j == 0 || r[0].createdAt >= r[j].createdAt;
  }

  // ---------------------------------------------------------------------------
  // Update, toggle, delete.

  /** The columns an update may set. */
  datatype LapanganPatch = LapanganPatch(
    nama: Option<string>,
    deskripsi: Option<Option<string>>,
    hargaPerJam: Option<real>,
    fotoUrl: Option<seq<string>>,
    fasilitas: Option<seq<string>>,
    status: Option<FieldStatus>)

  /** A column given in the patch takes the patch's value; every other column, and the
      id and creation time, keep theirs. */
  function ApplyPatch(l: Lapangan, p: LapanganPatch): (r: Lapangan)
    ensures r.id == l.id && r.createdAt == l.createdAt
    ensures r.nama == if p.nama.Some? then p.nama.value else l.nama
    ensures r.deskripsi == if p.deskripsi.Some? then p.deskripsi.value else l.deskripsi
    ensures r.hargaPerJam == if p.hargaPerJam.Some? then p.hargaPerJam.value else l.hargaPerJam
    ensures r.fotoUrl == if p.fotoUrl.Some? then p.fotoUrl.value else l.fotoUrl
    ensures r.fasilitas == if p.fasilitas.Some? then p.fasilitas.value else l.fasilitas
    ensures r.status == if p.status.Some? then p.status.value else l.status
    ensures p == LapanganPatch(None, None, None, None, None, None) ==> r == l
  {
    l.(nama := Overwrite(l.nama, p.nama),
       deskripsi := Overwrite(l.deskripsi, p.deskripsi),
       hargaPerJam := Overwrite(l.hargaPerJam, p.hargaPerJam),
       fotoUrl := Overwrite(l.fotoUrl, p.fotoUrl),
       fasilitas := Overwrite(l.fasilitas, p.fasilitas),
       status := Overwrite(l.status, p.status))
  }

  /** Store a changed field row in place of the row with the same id. */
  function Replace(db: Db, i: nat, l: Lapangan): (d: Db)
    requires i < |db.lapangan| && l.id == db.lapangan[i].id
    ensures d.lapangan == db.lapangan[i := l]
    ensures d.bookings == db.bookings && d.nextLapanganId == db.nextLapanganId
    ensures d.nextBookingId == db.nextBookingId
    ensures Valid(db) ==> Valid(d)
  {
    var d := db.(lapangan := db.lapangan[i := l]);
    assert forall k :: 0 <= k < |db.lapangan| ==> LapanganId(d.lapangan[k]) == LapanganId(db.lapangan[k]);
    forall x: nat ensures FindLapangan(d, x) == FindLapangan(db, x) {
      Seqs.FindIndexSameKeys(d.lapangan, db.lapangan, x, LapanganId);
    }
    assert Valid(db) ==> Seqs.UniqueKeys(d.lapangan, LapanganId) by {
      if Valid(db) {
        forall a, c | 0 <= a < c < |d.lapangan|
          ensures Seqs.KeyDiffers(LapanganId)(d.lapangan[a], d.lapangan[c])
        {
          assert Seqs.KeyDiffers(LapanganId)(db.lapangan[a], db.lapangan[c]);
        }
      }
    }
    d
  }

  /** `updateLapangan`: overwrites the given columns of an existing field; the table
      rejects a negative hourly rate. */
  function UpdateLapangan(db: Db, id: nat, p: LapanganPatch): (r: Result<Saved<Lapangan>, ServiceError>)
    ensures r == Failure(LapanganNotFound) <==> GetLapanganById(db, id).Failure?
    ensures r == Failure(ValidationMin("harga_per_jam")) <==>
              GetLapanganById(db, id).Success? && p.hargaPerJam.Some? && p.hargaPerJam.value < 0.0
    ensures r.Success? <==>
              GetLapanganById(db, id).Success? && (p.hargaPerJam.None? || p.hargaPerJam.value >= 0.0)
    ensures r.Success? ==>
              && r.value.row == ApplyPatch(GetLapanganById(db, id).value, p)
              && r.value.db.bookings == db.bookings
              && r.value.db.nextLapanganId == db.nextLapanganId
              && r.value.db.nextBookingId == db.nextBookingId
              && |r.value.db.lapangan| == |db.lapangan|
              && (Seqs.UniqueKeys(db.lapangan, LapanganId) ==>
                    forall k :: 0 <= k < |db.lapangan| ==>
                      r.value.db.lapangan[k] == if db.lapangan[k].id == id then r.value.row else db.lapangan[k])
              && (Valid(db) ==> Valid(r.value.db))
  {
    match FindLapangan(db, id)
    case None => Failure(LapanganNotFound)
    case Some(i) =>
      if p.hargaPerJam.Some? && p.hargaPerJam.value < 0.0 then Failure(ValidationMin("harga_per_jam"))
      else
        var u := ApplyPatch(db.lapangan[i], p);
        Success(Saved(Replace(db, i, u), u))
  }

  /** After a successful update, looking the field up gives the patched row, and every
      other field is looked up as before. */
  lemma UpdatedIsFound(db: Db, id: nat, p: LapanganPatch, other: nat)
    requires Valid(db)
    requires UpdateLapangan(db, id, p).Success?
    ensures var saved := UpdateLapangan(db, id, p).value;
            && GetLapanganById(saved.db, id) == Success(saved.row)
            && (other != id ==> GetLapanganById(saved.db, other) == GetLapanganById(db, other))
  {
    var saved := UpdateLapangan(db, id, p).value;
    var i := FindLapangan(db, id).value;
    assert forall k :: 0 <= k < |db.lapangan| ==> LapanganId(saved.db.lapangan[k]) == LapanganId(db.lapangan[k]);
    Seqs.FindIndexSameKeys(saved.db.lapangan, db.lapangan, id, LapanganId);
    Seqs.FindIndexSameKeys(saved.db.lapangan, db.lapangan, other, LapanganId);
  }

  /** The status a toggle switches to. */
  function Toggled(s: FieldStatus): (t: FieldStatus)
    ensures t != s
    ensures t == Aktif <==> s == Nonaktif
  {
    match s
    case Aktif => Nonaktif
    case Nonaktif => Aktif
  }

  /** `toggleStatus`: flips an existing field between active and inactive and changes
      nothing else. */
  function ToggleStatus(db: Db, id: nat): (r: Result<Saved<Lapangan>, ServiceError>)
    ensures r.Failure? <==> GetLapanganById(db, id).Failure?
    ensures r.Failure? ==> r.error == LapanganNotFound
    ensures r.Success? ==>
              var before := GetLapanganById(db, id).value;
              && r.value.row == before.(status := Toggled(before.status))
              && r.value.db.bookings == db.bookings
              && r.value.db.nextLapanganId == db.nextLapanganId
              && r.value.db.nextBookingId == db.nextBookingId
              && |r.value.db.lapangan| == |db.lapangan|
              && (Seqs.UniqueKeys(db.lapangan, LapanganId) ==>
                    forall k :: 0 <= k < |db.lapangan| ==>
                      r.value.db.lapangan[k] == if db.lapangan[k].id == id then r.value.row else db.lapangan[k])
              && (Valid(db) ==> Valid(r.value.db))
  {
    match FindLapangan(db, id)
    case None => Failure(LapanganNotFound)
    case Some(i) =>
      var l := db.lapangan[i];
      var t := l.(status := Toggled(l.status));
      Success(Saved(Replace(db, i, t), t))
  }

  /** Toggling twice restores the store exactly. */
  lemma ToggleTwiceRestores(db: Db, id: nat)
    requires GetLapanganById(db, id).Success?
    ensures var once := ToggleStatus(db, id).value.db;
            ToggleStatus(once, id).Success? && ToggleStatus(once, id).value.db == db
  {
    var i := FindLapangan(db, id).value;
    var once := ToggleStatus(db, id).value.db;
    assert once.lapangan == db.lapangan[i := once.lapangan[i]];
    assert forall k :: 0 <= k < |db.lapangan| ==> LapanganId(once.lapangan[k]) == LapanganId(db.lapangan[k]);
    Seqs.FindIndexSameKeys(once.lapangan, db.lapangan, id, LapanganId);
    assert ToggleStatus(once, id).value.db.lapangan == db.lapangan;
  }

  function OnOtherField(id: nat): Booking -> bool {
    (b: Booking) => b.lapanganId != id
  }

  /** `deleteLapangan`: removes the field and, through the foreign key's cascade, every
      booking of that field. */
  function DeleteLapangan(db: Db, id: nat): (r: Result<Db, ServiceError>)
    ensures r.Failure? <==> GetLapanganById(db, id).Failure?
    ensures r.Failure? ==> r.error == LapanganNotFound
    ensures r.Success? ==>
              && |r.value.lapangan| == |db.lapangan| - 1
              && (forall l :: l in r.value.lapangan ==> l in db.lapangan)
              && r.value.nextLapanganId == db.nextLapanganId
              && r.value.nextBookingId == db.nextBookingId
              && forall b :: b in r.value.bookings <==> b in db.bookings && b.lapanganId != id
  {
    match FindLapangan(db, id)
    case None => Failure(LapanganNotFound)
    case Some(i) =>
      var rest := Seqs.RemoveAt(db.lapangan, i);
      assert forall l :: l in rest ==> l in db.lapangan by {
        forall l | l in rest ensures l in db.lapangan {
          var k :| 0 <= k < |rest| && rest[k] == l;
          if k >= i { assert rest[k] == db.lapangan[k + 1]; }
        }
      }
      Success(Db(rest, Seqs.Filter(db.bookings, OnOtherField(id)), db.nextLapanganId, db.nextBookingId))
  }

  /** With unique ids, delete removes exactly the field with that id. */
  lemma DeleteRemovesField(db: Db, id: nat, l: Lapangan)
    requires Seqs.UniqueKeys(db.lapangan, LapanganId)
    requires FindLapangan(db, id).Some?
    ensures l in DeleteLapangan(db, id).value.lapangan <==> l in db.lapangan && l.id != id
  {
    var i := FindLapangan(db, id).value;
    Seqs.RemoveAtElements(db.lapangan, i, l);
    if l in db.lapangan && l.id != id {
      var k :| 0 <= k < |db.lapangan| && db.lapangan[k] == l;
      assert k != i;
    }
    if exists k :: 0 <= k < |db.lapangan| && k != i && db.lapangan[k] == l {
      var k :| 0 <= k < |db.lapangan| && k != i && db.lapangan[k] == l;
      assert Seqs.KeyDiffers(LapanganId)(db.lapangan[if k < i then k else i], db.lapangan[if k < i then i else k]);
    }
  }

  /** A successful delete keeps every integrity rule of the store: no booking is left
      referring to the removed field. */
  lemma DeletePreservesValid(db: Db, id: nat)
    requires Valid(db)
    requires FindLapangan(db, id).Some?
    ensures Valid(DeleteLapangan(db, id).value)
  {
    var i := FindLapangan(db, id).value;
    RemoveKeepsKeys(db.lapangan, i, LapanganId, db.nextLapanganId);
    FilterKeepsKeys(db.bookings, OnOtherField(id), BookingId, db.nextBookingId);
    Seqs.FilterPairwise(db.bookings, OnOtherField(id), NoClash);
    DeleteKeepsFieldsExist(db, id);
  }

  lemma DeleteKeepsFieldsExist(db: Db, id: nat)
    requires Valid(db)
    requires FindLapangan(db, id).Some?
    ensures FieldsExist(DeleteLapangan(db, id).value)
  {
    var i := FindLapangan(db, id).value;
    var after := DeleteLapangan(db, id).value;
    forall k | 0 <= k < |after.bookings|
      ensures FindLapangan(after, after.bookings[k].lapanganId).Some?
    {
      var b := after.bookings[k];
      assert b in db.bookings && b.lapanganId != id;
      var m :| 0 <= m < |db.bookings| && db.bookings[m] == b;
      assert FindLapangan(db, b.lapanganId).Some?;
      Seqs.RemoveAtKeepsOtherKeys(db.lapangan, i, b.lapanganId, LapanganId);
    }
  }
}

=== FILE: routes.dfy ===
/** The request handlers that decide who may do what before a service is called:
    the booking listing, which scopes a non-administrator to their own bookings, and
    the cancellation request, which grants administrators the right to cancel any
    booking. */
module Routes {
  import opened Wrappers
  import opened Store
  import opened Auth
  import opened BookingService

  /** The filters of a listing request after scoping: a caller who is not an
      administrator always lists with their own user id. */
  function ScopeFilters(user: JwtPayload, f: BookingFilters): (g: BookingFilters)
    ensures !IsAdmin(user.role) ==> g.userId == Some(user.userId)
    ensures g.lapanganId == f.lapanganId && g.status == f.status && g.tanggal == f.tanggal
    ensures IsAdmin(user.role) ==> g == f
  {
    if user.role != "admin" then f.(userId := Some(user.userId)) else f
  }

  /** The listing a caller receives. */
  function ListBookings(db: Db, user: JwtPayload, f: BookingFilters): (r: seq<Booking>)
    ensures !IsAdmin(user.role) && user.userId != 0 ==> forall b :: b in r ==> b.userId == user.userId
    ensures forall b :: b in r ==> b in db.bookings
  {
    GetAllBookings(db, ScopeFilters(user, f))
  }

  /** A caller who is not an administrator only ever sees their own bookings, and sees
      every one of them that passes the other filters. */
  lemma NonAdminSeesOwnBookings(db: Db, user: JwtPayload, f: BookingFilters, b: Booking)
    requires !IsAdmin(user.role) && user.userId != 0
    ensures b in ListBookings(db, user, f) <==>
              && b in db.bookings
              && b.userId == user.userId
              && MatchesFilters(f.(userId := None), b)
  {
  }

  /** An administrator sees exactly what the filters select. */
  lemma AdminSeesFiltered(db: Db, user: JwtPayload, f: BookingFilters)
    requires IsAdmin(user.role)
    ensures ListBookings(db, user, f) == GetAllBookings(db, f)
  {
  }

  datatype RouteError = MissingBookingId | Service(e: ServiceError)

  function RouteMessage(e: RouteError): string {
    match e
    case MissingBookingId => "booking_id harus diisi"
    case Service(e) => Store.Message(e)
  }

  /** The cancellation request: a missing or zero `booking_id` is refused; otherwise the
      booking is cancelled on behalf of the caller, as an administrator exactly when the
      caller's role is `admin`. */
  function CancelRequest(db: Db, user: JwtPayload, bookingId: Option<nat>)
    : (r: Result<Saved<Booking>, RouteError>)
    ensures r == Failure(MissingBookingId) <==> bookingId.None? || bookingId.value == 0
    ensures bookingId.Some? && bookingId.value != 0 ==>
              match CancelBooking(db, bookingId.value, user.userId, IsAdmin(user.role))
              case Success(s) => r == Success(s)
              case Failure(e) => r == Failure(Service(e))
  {
    if bookingId.None? || bookingId.value == 0 then Failure(MissingBookingId)
    else
      var isAdmin := user.role == "admin";
      match CancelBooking(db, bookingId.value, user.userId, isAdmin)
      case Success(s) => Success(s)
      case Failure(e) => Failure(Service(e))
  }

  /** Whoever is not an administrator can cancel only a booking of their own. */
  lemma OnlyOwnerOrAdminCancels(db: Db, user: JwtPayload, bookingId: Option<nat>)
    requires CancelRequest(db, user, bookingId).Success?
    ensures var before := GetBookingById(db, bookingId.value).value;
            IsAdmin(user.role) || before.userId == user.userId
  {
  }
}

=== FILE: schemas.dfy ===
/** The request schemas: which bodies the routes accept before a service is called, and
    what an accepted body becomes. Each schema is a function that either rejects the
    input (`None`) or returns the typed value the route passes on. Checks that rest on a
    library (e-mail and URL syntax, calendar-date parsing) are parameters. */
module Schemas {
  import opened Wrappers
  import opened Times
  import opened Store
  import opened Availability
  import BookingService
  import LapanganService

  /** The string length bound of every `min(n)` rule. */
  predicate MinLength(s: string, n: nat) {
    |s| >= n
  }

  /** An optional string field with a `min(n)` rule: absent, or present and long enough. */
  predicate OptionalMinLength(s: Option<string>, n: nat) {
    s.None? || MinLength(s.value, n)
  }

  // ---------------------------------------------------------------------------
  // Status enumerations.

  /** The `updateBookingStatusSchema` enumeration. */
  function ParseBookingStatus(s: string): (r: Option<BookingStatus>)
    ensures r.Some? <==> s in {"pending", "confirmed", "cancelled", "completed"}
  {
    if s == "pending" then Some(Pending)
    else if s == "confirmed" then Some(Confirmed)
    else if s == "cancelled" then Some(Cancelled)
    else if s == "completed" then Some(Completed)
    else None
  }

  function BookingStatusName(b: BookingStatus): string {
    match b
    case Pending => "pending"
    case Confirmed => "confirmed"
    case Cancelled => "cancelled"
    case Completed => "completed"
  }

  /** The enumeration and the stored names are inverse to each other. */
  lemma BookingStatusRoundTrip(b: BookingStatus, s: string)
    ensures ParseBookingStatus(BookingStatusName(b)) == Some(b)
    ensures ParseBookingStatus(s).Some? ==> BookingStatusName(ParseBookingStatus(s).value) == s
  {
  }

  /** The `status` enumeration of the field schema. */
  function ParseFieldStatus(s: string): (r: Option<FieldStatus>)
    ensures r.Some? <==> s in {"aktif", "nonaktif"}
  {
    if s == "aktif" then Some(Aktif) else if s == "nonaktif" then Some(Nonaktif) else None
  }

  function FieldStatusName(f: FieldStatus): string {
    match f
    case Aktif => "aktif"
    case Nonaktif => "nonaktif"
  }

  lemma FieldStatusRoundTrip(f: FieldStatus, s: string)
    ensures ParseFieldStatus(FieldStatusName(f)) == Some(f)
    ensures ParseFieldStatus(s).Some? ==> FieldStatusName(ParseFieldStatus(s).value) == s
  {
  }

  // ---------------------------------------------------------------------------
  // bookingSchema.

  /** A booking request body. `tanggal` is the date string as sent. */
  datatype BookingRequest = BookingRequest(
    lapanganId: int,
    tanggal: string,
    jamMulai: string,
    jamSelesai: string,
    catatan: Option<string>)

  /** An accepted booking request, with its date and times read. */
  datatype ValidBooking = ValidBooking(
    lapanganId: nat,
    tanggal: Date,
    jamMulai: Minutes,
    jamSelesai: Minutes,
    catatan: Option<string>)

  /** `bookingSchema` against the current day `today`; `parseDate` reads a date string
      (`None` for a string that is not a date). Accepted: a positive field id, a date
      that is not in the past, two times of the `H:mm`/`HH:mm` pattern, and an end time
      strictly after the start time. */
  function ValidateBooking(req: BookingRequest, today: Date, parseDate: string -> Option<Date>)
    : (r: Option<ValidBooking>)
    ensures r.Some? <==>
              && req.lapanganId > 0
              && parseDate(req.tanggal).Some? && parseDate(req.tanggal).value >= today
              && MatchesTimePattern(req.jamMulai) && MatchesTimePattern(req.jamSelesai)
              && ParseTime(req.jamSelesai).value > ParseTime(req.jamMulai).value
    ensures r.Some? ==>
              && r.value.lapanganId == req.lapanganId
              && r.value.tanggal == parseDate(req.tanggal).value
              && Some(r.value.jamMulai) == ParseTime(req.jamMulai)
              && Some(r.value.jamSelesai) == ParseTime(req.jamSelesai)
              && r.value.catatan == req.catatan
              && r.value.jamMulai < r.value.jamSelesai < MinutesPerDay
  {
    if req.lapanganId <= 0 then None
    else match (parseDate(req.tanggal), ParseTime(req.jamMulai), ParseTime(req.jamSelesai))
      case (Some(d), Some(s), Some(e)) =>
        if d >= today && e > s then Some(ValidBooking(req.lapanganId, d, s, e, req.catatan)) else None
      case _ => None
  }

  /** Equal start and end times are refused, whatever the rest of the request. */
  lemma EmptyIntervalRejected(req: BookingRequest, today: Date, parseDate: string -> Option<Date>)
    requires req.jamMulai == req.jamSelesai
    ensures ValidateBooking(req, today, parseDate).None?
  {
  }

  /** A date before today is refused. */
  lemma PastDateRejected(req: BookingRequest, today: Date, parseDate: string -> Option<Date>)
    requires parseDate(req.tanggal).Some? && parseDate(req.tanggal).value < today
    ensures ValidateBooking(req, today, parseDate).None?
  {
  }

  /** Every accepted request spells its times in a form that reads back to the same
      minutes when zero-padded, so the stored `HH:mm:ss` values format back to them. */
  lemma AcceptedTimesRoundTrip(req: BookingRequest, today: Date, parseDate: string -> Option<Date>)
    requires ValidateBooking(req, today, parseDate).Some?
    ensures var v := ValidateBooking(req, today, parseDate).value;
            && ParseTime(FormatTime(DbTimeString(v.jamMulai))) == Some(v.jamMulai)
            && ParseTime(FormatTime(DbTimeString(v.jamSelesai))) == Some(v.jamSelesai)
  {
    var v := ValidateBooking(req, today, parseDate).value;
    FormatDbTime(v.jamMulai);
    FormatDbTime(v.jamSelesai);
  }

  /** The creation request the booking route builds: the caller's id from the token,
      a zero price that the service replaces. */
  function ToNewBooking(v: ValidBooking, userId: nat): BookingService.NewBooking {
    BookingService.NewBooking(userId, v.lapanganId, v.tanggal, v.jamMulai, v.jamSelesai, 0.0, Pending, v.catatan)
  }

  /** A booking created from an accepted request has a proper interval and, at a
      positive hourly rate, a positive price. */
  lemma AcceptedBookingPriced(db: Db, v: ValidBooking, userId: nat)
    requires v.jamMulai < v.jamSelesai
    requires BookingService.CreateBooking(db, ToNewBooking(v, userId)).Success?
    ensures var b := BookingService.CreateBooking(db, ToNewBooking(v, userId)).value.row;
            && b.jamMulai < b.jamSelesai
            && (LookupLapangan(db, v.lapanganId).value.hargaPerJam > 0.0 ==> b.totalHarga > 0.0)
  {
  }

  /** When every booking is created from an accepted request, active bookings keep
      proper intervals, which is what makes the availability query exact. */
  lemma AcceptedCreationKeepsProperIntervals(db: Db, v: ValidBooking, userId: nat)
    requires ProperActiveIntervals(db.bookings)
    requires v.jamMulai < v.jamSelesai
    requires BookingService.CreateBooking(db, ToNewBooking(v, userId)).Success?
    ensures ProperActiveIntervals(BookingService.CreateBooking(db, ToNewBooking(v, userId)).value.db.bookings)
  {
    var saved := BookingService.CreateBooking(db, ToNewBooking(v, userId)).value;
    var bs := saved.db.bookings;
    assert bs == db.bookings + [saved.row];
    forall k | 0 <= k < |bs| && IsActive(bs[k].status)
      ensures bs[k].jamMulai < bs[k].jamSelesai
    {
      if k < |db.bookings| {
        assert bs[k] == db.bookings[k];
      }
    }
  }

  // ---------------------------------------------------------------------------
  // lapanganSchema and its partial form.

  /** A field request body; every key may be missing. */
  datatype LapanganRequest = LapanganRequest(
    nama: Option<string>,
    deskripsi: Option<string>,
    hargaPerJam: Option<real>,
    fotoUrl: Option<seq<string>>,
    fasilitas: Option<seq<string>>,
    status: Option<string>)

  /** The rules on the keys that are present: a name of at least three characters, a
      strictly positive hourly rate, photo entries that are URLs, a known status. */
  predicate PresentFieldsValid(req: LapanganRequest, isUrl: string -> bool) {
    && OptionalMinLength(req.nama, 3)
    && (req.hargaPerJam.None? || req.hargaPerJam.value > 0.0)
    && (req.fotoUrl.None? || forall k :: 0 <= k < |req.fotoUrl.value| ==> isUrl(req.fotoUrl.value[k]))
    && (req.status.None? || ParseFieldStatus(req.status.value).Some?)
  }

  function ReadStatus(s: Option<string>): Option<FieldStatus>
    requires s.None? || ParseFieldStatus(s.value).Some?
  {
    if s.None? then None else ParseFieldStatus(s.value)
  }

  /** `lapanganSchema`: name and hourly rate are required. */
  function ValidateLapangan(req: LapanganRequest, isUrl: string -> bool)
    : (r: Option<LapanganService.NewLapangan>)
    ensures r.Some? <==> req.nama.Some? && req.hargaPerJam.Some? && PresentFieldsValid(req, isUrl)
    ensures r.Some? ==>
              && r.value.nama == req.nama.value && |r.value.nama| >= 3
              && r.value.hargaPerJam == req.hargaPerJam.value && r.value.hargaPerJam > 0.0
              && r.value.deskripsi == req.deskripsi
              && r.value.fotoUrl == req.fotoUrl && r.value.fasilitas == req.fasilitas
              && (r.value.status.Some? <==> req.status.Some?)
              && (req.status.Some? ==> FieldStatusName(r.value.status.value) == req.status.value)
  {
    if req.nama.Some? && req.hargaPerJam.Some? && PresentFieldsValid(req, isUrl) then
      Some(LapanganService.NewLapangan(req.nama.value, req.deskripsi, req.hargaPerJam.value,
                                       req.fotoUrl, req.fasilitas, ReadStatus(req.status)))
    else None
  }

  /** `lapanganSchema.partial()`, used by the update route: the same rules on whatever
      keys are present. */
  function ValidateLapanganPatch(req: LapanganRequest, isUrl: string -> bool)
    : (r: Option<LapanganService.LapanganPatch>)
    ensures r.Some? <==> PresentFieldsValid(req, isUrl)
    ensures r.Some? ==>
              && r.value.nama == req.nama
              && r.value.hargaPerJam == req.hargaPerJam
              && (r.value.deskripsi.Some? <==> req.deskripsi.Some?)
              && (req.deskripsi.Some? ==> r.value.deskripsi.value == req.deskripsi)
              && r.value.fotoUrl == req.fotoUrl && r.value.fasilitas == req.fasilitas
              && (r.value.status.Some? <==> req.status.Some?)
              && (req.status.Some? ==> FieldStatusName(r.value.status.value) == req.status.value)
  {
    if PresentFieldsValid(req, isUrl) then
      Some(LapanganService.LapanganPatch(req.nama,
                                         if req.deskripsi.Some? then Some(req.deskripsi) else None,
                                         req.hargaPerJam, req.fotoUrl, req.fasilitas, ReadStatus(req.status)))
    else None
  }

  /** Every body the full schema accepts is accepted by the partial one. */
  lemma FullImpliesPartial(req: LapanganRequest, isUrl: string -> bool)
    ensures ValidateLapangan(req, isUrl).Some? ==> ValidateLapanganPatch(req, isUrl).Some?
  {
  }

  /** The schema is stricter than the table: a field it accepts is never refused by the
      non-negative rate rule, and a patch it accepts never is either. */
  lemma AcceptedLapanganStored(db: Db, req: LapanganRequest, isUrl: string -> bool, now: int, id: nat)
    ensures ValidateLapangan(req, isUrl).Some? ==>
              LapanganService.CreateLapangan(db, ValidateLapangan(req, isUrl).value, now).Success?
    ensures ValidateLapanganPatch(req, isUrl).Some? ==>
              (LapanganService.UpdateLapangan(db, id, ValidateLapanganPatch(req, isUrl).value).Success?
               <==> LapanganService.GetLapanganById(db, id).Success?)
  {
  }

  // ---------------------------------------------------------------------------
  // registerSchema, loginSchema, updateProfileSchema.

  datatype RegisterRequest = RegisterRequest(
    email: string,
    nama: string,
    password: string,
    noHp: string,
    role: Option<string>)

  /** `registerSchema`: an e-mail address, a name of at least three characters, a password
      of at least six, a phone number of at least ten, and optionally the role `user` or
      `admin`. */
  predicate RegisterValid(req: RegisterRequest, isEmail: string -> bool) {
    && isEmail(req.email)
    && MinLength(req.nama, 3)
    && MinLength(req.password, 6)
    && MinLength(req.noHp, 10)
    && (req.role.None? || req.role.value in {"user", "admin"})
  }

  datatype LoginRequest = LoginRequest(email: string, password: string)

  /** `loginSchema`: an e-mail address and a non-empty password. */
  predicate LoginValid(req: LoginRequest, isEmail: string -> bool) {
    isEmail(req.email) && MinLength(req.password, 1)
  }

  datatype ProfileRequest = ProfileRequest(nama: Option<string>, noHp: Option<string>)

  /** `updateProfileSchema`: each key optional, with the register rule when present. */
  predicate ProfileValid(req: ProfileRequest) {
    OptionalMinLength(req.nama, 3) && OptionalMinLength(req.noHp, 10)
  }

  /** The bodies of a sign-up: a valid registration also logs in and also passes as a
      profile update of the same name and phone number. */
  lemma RegisterImpliesOthers(req: RegisterRequest, isEmail: string -> bool)
    requires RegisterValid(req, isEmail)
    ensures LoginValid(LoginRequest(req.email, req.password), isEmail)
    ensures ProfileValid(ProfileRequest(Some(req.nama), Some(req.noHp)))
  {
  }

  /** Boundary examples of the length rules. */
  lemma LengthBoundaries(isEmail: string -> bool)
    requires isEmail("a@b.co")
    ensures RegisterValid(RegisterRequest("a@b.co", "Ani", "123456", "0812345678", None), isEmail)
    ensures !RegisterValid(RegisterRequest("a@b.co", "An", "123456", "0812345678", None), isEmail)
    ensures !RegisterValid(RegisterRequest("a@b.co", "Ani", "12345", "0812345678", None), isEmail)
    ensures !RegisterValid(RegisterRequest("a@b.co", "Ani", "123456", "081234567", None), isEmail)
    ensures !RegisterValid(RegisterRequest("a@b.co", "Ani", "123456", "0812345678", Some("owner")), isEmail)
    ensures ProfileValid(ProfileRequest(None, None))
  {
  }
}

=== FILE: seqs.dfy ===
/** Sequence operations that stand in for the ORM's row queries over an in-memory table. */
module Seqs {
  import opened Wrappers

  /** Position of the first row whose primary key is `id` (the model of `findByPk`). */
  function FindIndex<T>(s: seq<T>, id: nat, idOf: T -> nat): (r: Option<nat>)
    ensures r.Some? ==> r.value < |s| && idOf(s[r.value]) == id
    ensures r.Some? ==> forall k :: 0 <= k < r.value ==> idOf(s[k]) != id
    ensures r.None? <==> forall k :: 0 <= k < |s| ==> idOf(s[k]) != id
  {
    if |s| == 0 then None
    else if idOf(s[0]) == id then Some(0)
    else match FindIndex(s[1..], id, idOf)
      case None => None
      case Some(k) => Some(k + 1)
  }

  /** Every element stands in relation `rel` to every later element. */
  ghost predicate Pairwise<T>(s: seq<T>, rel: (T, T) -> bool) {
    forall i, j :: 0 <= i < j < |s| ==> rel(s[i], s[j])
  }

  function KeyDiffers<T>(idOf: T -> nat): (T, T) -> bool {
    (a, b) => idOf(a) != idOf(b)
  }

  /** No two rows share a primary key. */
  ghost predicate UniqueKeys<T>(s: seq<T>, idOf: T -> nat) {
    Pairwise(s, KeyDiffers(idOf))
  }

  /** With unique keys, the row found is the only row carrying that key. */
  lemma FindIndexUnique<T>(s: seq<T>, id: nat, idOf: T -> nat, k: nat)
    requires UniqueKeys(s, idOf)
    requires k < |s| && idOf(s[k]) == id
    ensures FindIndex(s, id, idOf) == Some(k)
  {
  }

  /** The search depends on the keys alone: rows with the same keys in the same places
      are searched alike. */
  lemma {:induction false} FindIndexSameKeys<T>(s: seq<T>, t: seq<T>, id: nat, idOf: T -> nat)
    requires |s| == |t|
    requires forall k :: 0 <= k < |s| ==> idOf(s[k]) == idOf(t[k])
    ensures FindIndex(s, id, idOf) == FindIndex(t, id, idOf)
  {
    if |s| > 0 {
      FindIndexSameKeys(s[1..], t[1..], id, idOf);
    }
  }

  /** Appending a row does not change where an existing key is found. */
  lemma {:induction false} FindIndexAppend<T>(s: seq<T>, x: T, id: nat, idOf: T -> nat)
    requires FindIndex(s, id, idOf).Some?
    ensures FindIndex(s + [x], id, idOf) == FindIndex(s, id, idOf)
  {
    if idOf(s[0]) != id {
      assert (s + [x])[1..] == s[1..] + [x];
      FindIndexAppend(s[1..], x, id, idOf);
    }
  }

  /** The rows satisfying `p`, in table order (the model of a `WHERE` clause). */
  function Filter<T(!new)>(s: seq<T>, p: T -> bool): (r: seq<T>)
    ensures |r| <= |s|
    ensures forall x :: x in r <==> x in s && p(x)
    ensures forall x :: multiset(r)[x] == if p(x) then multiset(s)[x] else 0
  {
    if |s| == 0 then []
    else
      assert s == [s[0]] + s[1..];
      (if p(s[0]) then [s[0]] else []) + Filter(s[1..], p)
  }

  /** The tail of a pairwise-related sequence is pairwise related, and its head is
      related to every later element. */
  lemma PairwiseTail<T>(s: seq<T>, rel: (T, T) -> bool)
    requires |s| > 0 && Pairwise(s, rel)
    ensures Pairwise(s[1..], rel)
    ensures forall y :: y in s[1..] ==> rel(s[0], y)
  {
    forall y | y in s[1..]
      ensures rel(s[0], y)
    {
      var k :| 0 <= k < |s[1..]| && s[1..][k] == y;
      assert s[k + 1] == y;
    }
    forall i, j | 0 <= i < j < |s[1..]|
      ensures rel(s[1..][i], s[1..][j])
    {
      assert s[1..][i] == s[i + 1] && s[1..][j] == s[j + 1];
    }
  }

  /** Putting in front an element related to everything keeps a sequence pairwise related. */
  lemma PairwiseCons<T>(x: T, t: seq<T>, rel: (T, T) -> bool)
    requires Pairwise(t, rel)
    requires forall y :: y in t ==> rel(x, y)
    ensures Pairwise([x] + t, rel)
  {
    var r := [x] + t;
    forall i, j | 0 <= i < j < |r|
      ensures rel(r[i], r[j])
    {
      assert r[j] == t[j - 1];
      if i > 0 {
        assert r[i] == t[i - 1];
      }
    }
  }

  /** A filtered sequence keeps every pairwise relation of the original. */
  lemma {:induction false} FilterPairwise<T(!new)>(s: seq<T>, p: T -> bool, rel: (T, T) -> bool)
    requires Pairwise(s, rel)
    ensures Pairwise(Filter(s, p), rel)
  {
    if |s| > 0 {
      PairwiseTail(s, rel);
      FilterPairwise(s[1..], p, rel);
      var rest := Filter(s[1..], p);
      if p(s[0]) {
        assert Filter(s, p) == [s[0]] + rest;
        PairwiseCons(s[0], rest, rel);
      } else {
        assert Filter(s, p) == rest;
      }
    }
  }

  /** `s` with the element at `i` removed (the model of deleting one row). */
  function RemoveAt<T>(s: seq<T>, i: nat): (r: seq<T>)
    requires i < |s|
    ensures |r| == |s| - 1
    ensures forall k :: 0 <= k < i ==> r[k] == s[k]
    ensures forall k :: i <= k < |r| ==> r[k] == s[k + 1]
  {
    s[..i] + s[i + 1..]
  }

  /** Removing one element keeps every pairwise relation of the original. */
  lemma RemoveAtPairwise<T>(s: seq<T>, i: nat, rel: (T, T) -> bool)
    requires i < |s|
    requires Pairwise(s, rel)
    ensures Pairwise(RemoveAt(s, i), rel)
  {
    var r := RemoveAt(s, i);
    forall a, c | 0 <= a < c < |r|
      ensures rel(r[a], r[c])
    {
      var a' := if a < i then a else a + 1;
      var c' := if c < i then c else c + 1;
      assert r[a] == s[a'] && r[c] == s[c'];
    }
  }

  /** Appending an element that every earlier one relates to keeps a sequence pairwise
      related. */
  lemma AppendPairwise<T>(s: seq<T>, x: T, rel: (T, T) -> bool)
    requires Pairwise(s, rel)
    requires forall k :: 0 <= k < |s| ==> rel(s[k], x)
    ensures Pairwise(s + [x], rel)
  {
    var r := s + [x];
    forall i, j | 0 <= i < j < |r|
      ensures rel(r[i], r[j])
    {
      assert r[i] == s[i];
      if j < |s| {
        assert r[j] == s[j];
      }
    }
  }

  /** Replacing the element at `i` by one that stands in the same relations to all others
      keeps a sequence pairwise related. */
  lemma ReplacePairwise<T>(s: seq<T>, i: nat, x: T, rel: (T, T) -> bool)
    requires i < |s| && Pairwise(s, rel)
    requires forall k :: 0 <= k < i ==> rel(s[k], x)
    requires forall k :: i < k < |s| ==> rel(x, s[k])
    ensures Pairwise(s[i := x], rel)
  {
    var r := s[i := x];
    forall a, c | 0 <= a < c < |r|
      ensures rel(r[a], r[c])
    {
      if a != i && c != i {
        assert r[a] == s[a] && r[c] == s[c];
      }
    }
  }

  /** Removing an element with another key leaves a key found before still found. */
  lemma RemoveAtKeepsOtherKeys<T>(s: seq<T>, i: nat, id: nat, idOf: T -> nat)
    requires i < |s| && idOf(s[i]) != id
    requires FindIndex(s, id, idOf).Some?
    ensures FindIndex(RemoveAt(s, i), id, idOf).Some?
  {
    var j := FindIndex(s, id, idOf).value;
    var r := RemoveAt(s, i);
    assert r[if j < i then j else j - 1] == s[j];
  }

  /** Every element left after a removal was in the original. */
  lemma RemoveAtElements<T>(s: seq<T>, i: nat, x: T)
    requires i < |s|
    ensures x in RemoveAt(s, i) <==> exists k :: 0 <= k < |s| && k != i && s[k] == x
  {
    var r := RemoveAt(s, i);
    if x in r {
      var k :| 0 <= k < |r| && r[k] == x;
      if k < i { assert s[k] == x; } else { assert s[k + 1] == x; }
    }
    if exists k :: 0 <= k < |s| && k != i && s[k] == x {
      var k :| 0 <= k < |s| && k != i && s[k] == x;
      if k < i { assert r[k] == x; } else { assert r[k - 1] == x; }
    }
  }
}

=== FILE: sorting.dfy ===
/** Descending sort on a two-level key, the model of `ORDER BY a DESC, b DESC`. */
module Sorting {

  /** A sort key compared lexicographically: `major` first, then `minor`. */
  datatype Key = Key(major: int, minor: int)

  /** `a` may come before `b` in a descending order. */
  predicate AtLeast(a: Key, b: Key) {
    a.major > b.major || (a.major == b.major && a.minor >= b.minor)
  }

  /** Every earlier element has a key at least as large as every later one. */
  ghost predicate SortedDesc<T>(s: seq<T>, key: T -> Key) {
    forall i, j :: 0 <= i < j < |s| ==> AtLeast(key(s[i]), key(s[j]))
  }

  /** Putting in front an element whose key is at least every key of a sorted sequence
      keeps it sorted. */
  lemma SortedCons<T>(x: T, s: seq<T>, key: T -> Key)
    requires SortedDesc(s, key)
    requires forall k :: 0 <= k < |s| ==> AtLeast(key(x), key(s[k]))
    ensures SortedDesc([x] + s, key)
  {
    var r := [x] + s;
    forall i, j | 0 <= i < j < |r|
      ensures AtLeast(key(r[i]), key(r[j]))
    {
      assert r[j] == s[j - 1];
      if i > 0 {
        assert r[i] == s[i - 1];
      }
    }
  }

  /** Insert `x` into a descending sequence, before the first element with a key not above it. */
  function Insert<T>(x: T, s: seq<T>, key: T -> Key): (r: seq<T>)
    requires SortedDesc(s, key)
    ensures SortedDesc(r, key)
    ensures forall k :: 0 <= k < |r| ==> r[k] == x || r[k] in s
    ensures multiset(r) == multiset(s) + multiset{x}
  {
    if |s| == 0 then [x]
    else if AtLeast(key(x), key(s[0])) then
      assert forall k :: 0 <= k < |s| ==> AtLeast(key(s[0]), key(s[k]));
      SortedCons(x, s, key);
      [x] + s
    else
      assert s == [s[0]] + s[1..];
      assert SortedDesc(s[1..], key) by {
        forall i, j | 0 <= i < j < |s[1..]|
          ensures AtLeast(key(s[1..][i]), key(s[1..][j]))
        {
          assert s[1..][i] == s[i + 1] && s[1..][j] == s[j + 1];
        }
      }
      var rest := Insert(x, s[1..], key);
      forall k | 0 <= k < |rest|
        ensures AtLeast(key(s[0]), key(rest[k]))
      {
        if rest[k] != x {
          var m :| 0 <= m < |s[1..]| && s[1..][m] == rest[k];
          assert s[m + 1] == rest[k];
        }
      }
      SortedCons(s[0], rest, key);
      [s[0]] + rest
  }

  /** Insertion sort into descending key order. Ties keep no particular order. */
  function SortDesc<T>(s: seq<T>, key: T -> Key): (r: seq<T>)
    ensures SortedDesc(r, key)
    ensures multiset(r) == multiset(s)
    ensures |r| == |s|
  {
    if |s| == 0 then []
    else
      assert s == [s[0]] + s[1..];
      Insert(s[0], SortDesc(s[1..], key), key)
  }

  /** A permutation holds exactly the same elements. */
  lemma SameElements<T>(a: seq<T>, b: seq<T>, x: T)
    requires multiset(a) == multiset(b)
    ensures x in a <==> x in b
  {
    assert x in a <==> multiset(a)[x] > 0;
    assert x in b <==> multiset(b)[x] > 0;
  }
}

=== FILE: store.dfy ===
/** The records of the booking platform and the in-memory store that replaces the
    `lapangan` and `bookings` tables, with the integrity rules the tables keep. */
module Store {
  import opened Wrappers
  import opened Times
  import Seqs

  /** A calendar day (a `DATEONLY` column), as a day number. */
  type Date = int

  datatype FieldStatus = Aktif | Nonaktif

  datatype BookingStatus = Pending | Confirmed | Cancelled | Completed

  /** A bookable field (`lapangan`). `createdAt` is the insertion timestamp. */
  datatype Lapangan = Lapangan(
    id: nat,
    nama: string,
    deskripsi: Option<string>,
    hargaPerJam: real,
    fotoUrl: seq<string>,
    fasilitas: seq<string>,
    status: FieldStatus,
    createdAt: int)

  /** A reservation of one field on one day for the interval [jamMulai, jamSelesai). */
  datatype Booking = Booking(
    id: nat,
    userId: nat,
    lapanganId: nat,
    tanggal: Date,
    jamMulai: Minutes,
    jamSelesai: Minutes,
    totalHarga: real,
    status: BookingStatus,
    catatan: Option<string>)

  /** Both tables plus their auto-increment counters. */
  datatype Db = Db(
    lapangan: seq<Lapangan>,
    bookings: seq<Booking>,
    nextLapanganId: nat,
    nextBookingId: nat)

  /** The errors the services raise, with the message each one carries. */
  datatype ServiceError =
    | LapanganNotFound
    | LapanganInactive
    | SlotTaken
    | BookingNotFound
    | CancelForbidden
    | NotCancellable
    | ValidationMin(column: string)

  function Message(e: ServiceError): string {
    match e
    case LapanganNotFound => "Lapangan tidak ditemukan"
    case LapanganInactive => "Lapangan sedang tidak aktif"
    case SlotTaken => "Jadwal sudah dibooking, silakan pilih waktu lain"
    case BookingNotFound => "Booking tidak ditemukan"
    case CancelForbidden => "Anda tidak memiliki akses untuk membatalkan booking ini"
    case NotCancellable => "Booking tidak dapat dibatalkan"
    case ValidationMin(column) => "Validation error: Validation min on " + column + " failed"
  }

  /** An update column: the given value when present, the current one otherwise. */
  function Overwrite<T>(current: T, given: Option<T>): T {
    match given
    case None => current
    case Some(v) => v
  }

  /** The result of a write: the new store and the row written. */
  datatype Saved<T> = Saved(db: Db, row: T)

  function LapanganId(l: Lapangan): nat { l.id }

  function BookingId(b: Booking): nat { b.id }

  /** `Lapangan.findByPk`. */
  function FindLapangan(db: Db, id: nat): Option<nat> {
    Seqs.FindIndex(db.lapangan, id, LapanganId)
  }

  /** `Booking.findByPk`. */
  function FindBooking(db: Db, id: nat): Option<nat> {
    Seqs.FindIndex(db.bookings, id, BookingId)
  }

  /** The field row with primary key `id`, if any. */
  function LookupLapangan(db: Db, id: nat): (r: Option<Lapangan>)
    ensures r.Some? ==> r.value in db.lapangan && r.value.id == id
    ensures r.None? <==> forall k :: 0 <= k < |db.lapangan| ==> db.lapangan[k].id != id
  {
    match FindLapangan(db, id)
    case None => None
    case Some(i) => Some(db.lapangan[i])
  }

  // ---------------------------------------------------------------------------
  // Integrity of the store.

  /** Only pending and confirmed bookings hold their slot. */
  predicate IsActive(s: BookingStatus) {
    s == Pending || s == Confirmed
  }

  /** The half-open intervals [s1, e1) and [s2, e2) share a minute. */
  predicate Overlaps(s1: Minutes, e1: Minutes, s2: Minutes, e2: Minutes) {
    s1 < e2 && s2 < e1
  }

  /** Two bookings that both hold overlapping slots of the same field on the same day. */
  predicate Clash(a: Booking, b: Booking) {
    && a.lapanganId == b.lapanganId
    && a.tanggal == b.tanggal
    && IsActive(a.status)
    && IsActive(b.status)
    && Overlaps(a.jamMulai, a.jamSelesai, b.jamMulai, b.jamSelesai)
  }

  function NoClash(a: Booking, b: Booking): bool {
    !Clash(a, b)
  }

  /** No double booking: no two active bookings of one field and day overlap. */
  ghost predicate NoDoubleBooking(bs: seq<Booking>) {
    Seqs.Pairwise(bs, NoClash)
  }

  /** Primary keys are positive, distinct and below the auto-increment counter. */
  ghost predicate KeysBelow<T>(s: seq<T>, idOf: T -> nat, next: nat) {
    && 0 < next
    && Seqs.UniqueKeys(s, idOf)
    && forall k :: 0 <= k < |s| ==> 0 < idOf(s[k]) < next
  }

  /** Every booking refers to an existing field (the `lapangan_id` foreign key). */
  ghost predicate FieldsExist(db: Db) {
    forall k :: 0 <= k < |db.bookings| ==> FindLapangan(db, db.bookings[k].lapanganId).Some?
  }

  ghost predicate Valid(db: Db) {
    && KeysBelow(db.lapangan, LapanganId, db.nextLapanganId)
    && KeysBelow(db.bookings, BookingId, db.nextBookingId)
    && FieldsExist(db)
    && NoDoubleBooking(db.bookings)
  }

  /** A row stored under the counter's value, with the counter advanced, keeps the keys
      positive, distinct and below the counter. */
  lemma AppendKeepsKeys<T>(s: seq<T>, x: T, idOf: T -> nat, next: nat)
    requires KeysBelow(s, idOf, next)
    requires idOf(x) == next
    ensures KeysBelow(s + [x], idOf, next + 1)
  {
    forall k | 0 <= k < |s|
      ensures Seqs.KeyDiffers(idOf)(s[k], x)
    {
      assert idOf(s[k]) < next;
    }
    Seqs.AppendPairwise(s, x, Seqs.KeyDiffers(idOf));
    var r := s + [x];
    forall k | 0 <= k < |r|
      ensures 0 < idOf(r[k]) < next + 1
    {
      if k < |s| {
        assert r[k] == s[k];
      }
    }
  }

  /** Rewriting a row without changing its key keeps the key rule. */
  lemma ReplaceKeepsKeys<T>(s: seq<T>, i: nat, x: T, idOf: T -> nat, next: nat)
    requires i < |s| && KeysBelow(s, idOf, next)
    requires idOf(x) == idOf(s[i])
    ensures KeysBelow(s[i := x], idOf, next)
  {
    var rel := Seqs.KeyDiffers(idOf);
    forall k | 0 <= k < i
      ensures rel(s[k], x)
    {
      assert rel(s[k], s[i]);
    }
    forall k | i < k < |s|
      ensures rel(x, s[k])
    {
      assert rel(s[i], s[k]);
    }
    Seqs.ReplacePairwise(s, i, x, rel);
    var r := s[i := x];
    assert forall k :: 0 <= k < |r| ==> idOf(r[k]) == idOf(s[k]);
  }

  /** Removing a row keeps the key rule. */
  lemma RemoveKeepsKeys<T>(s: seq<T>, i: nat, idOf: T -> nat, next: nat)
    requires i < |s| && KeysBelow(s, idOf, next)
    ensures KeysBelow(Seqs.RemoveAt(s, i), idOf, next)
  {
    Seqs.RemoveAtPairwise(s, i, Seqs.KeyDiffers(idOf));
  }

  /** Keeping only some rows keeps the key rule. */
  lemma FilterKeepsKeys<T(!new)>(s: seq<T>, p: T -> bool, idOf: T -> nat, next: nat)
    requires KeysBelow(s, idOf, next)
    ensures KeysBelow(Seqs.Filter(s, p), idOf, next)
  {
    Seqs.FilterPairwise(s, p, Seqs.KeyDiffers(idOf));
    var r := Seqs.Filter(s, p);
    forall k | 0 <= k < |r|
      ensures 0 < idOf(r[k]) < next
    {
      assert r[k] in s;
    }
  }

  /** The foreign key rule depends only on the field table and on the field each booking
      refers to. */
  lemma SameReferencesKeepFieldsExist(db: Db, d: Db)
    requires FieldsExist(db)
    requires d.lapangan == db.lapangan && |d.bookings| == |db.bookings|
    requires forall k :: 0 <= k < |d.bookings| ==> d.bookings[k].lapanganId == db.bookings[k].lapanganId
    ensures FieldsExist(d)
  {
    forall k | 0 <= k < |d.bookings|
      ensures FindLapangan(d, d.bookings[k].lapanganId).Some?
    {
      assert FindLapangan(d, d.bookings[k].lapanganId) == FindLapangan(db, db.bookings[k].lapanganId);
    }
  }

  /** The empty store satisfies every integrity rule. */
  function EmptyDb(): (db: Db)
    ensures Valid(db)
    ensures |db.lapangan| == 0 && |db.bookings| == 0
  {
    Db([], [], 1, 1)
  }
}

=== FILE: times.dfy ===
/** Clock times as minutes since midnight: the `HH:mm` pattern of the booking schema,
    the `split(':').map(Number)` conversion, `formatTime` and `calculateDuration`. */
module Times {
  import opened Wrappers

  /** Minutes since midnight. */
  type Minutes = nat

  const MinutesPerDay: nat := 1440

  predicate IsDigit(c: char) { '0' <= c <= '9' }

  function DigitValue(c: char): (d: nat)
    requires IsDigit(c)
    ensures d < 10
  {
    c as nat - '0' as nat
  }

  function DigitChar(d: nat): (c: char)
    requires d < 10
    ensures IsDigit(c) && DigitValue(c) == d
  {
    ('0' as nat + d) as char
  }

  // ---------------------------------------------------------------------------
  // The pattern ^([0-1]?[0-9]|2[0-3]):[0-5][0-9]$, written alternative by alternative.

  /** The hour group `([0-1]?[0-9]|2[0-3])`. */
  predicate HourGroup(h: string) {
    || (|h| == 1 && IsDigit(h[0]))
    || (|h| == 2 && '0' <= h[0] <= '1' && IsDigit(h[1]))
    || (|h| == 2 && h[0] == '2' && '0' <= h[1] <= '3')
  }

  /** The minute part `[0-5][0-9]`. */
  predicate MinuteGroup(m: string) {
    |m| == 2 && '0' <= m[0] <= '5' && IsDigit(m[1])
  }

  /** The whole anchored pattern: the hour group, a colon, the minute part, nothing else. */
  predicate MatchesTimePattern(s: string) {
    || (|s| == 4 && s[1] == ':' && HourGroup(s[..1]) && MinuteGroup(s[2..]))
    || (|s| == 5 && s[2] == ':' && HourGroup(s[..2]) && MinuteGroup(s[3..]))
  }

  // ---------------------------------------------------------------------------
  // The conversion the schema refinement and the services apply: split at ':' and
  // read both halves as numbers, here restricted to what the pattern admits.

  /** Position of the first ':' in `s`. */
  function ColonIndex(s: string): (r: Option<nat>)
    ensures r.Some? ==> r.value < |s| && s[r.value] == ':'
    ensures r.Some? ==> forall k :: 0 <= k < r.value ==> s[k] != ':'
    ensures r.None? ==> forall k :: 0 <= k < |s| ==> s[k] != ':'
  {
    if |s| == 0 then None
    else if s[0] == ':' then Some(0)
    else match ColonIndex(s[1..])
      case None => None
      case Some(k) => Some(k + 1)
  }

  predicate AllDigits(s: string) {
    forall k :: 0 <= k < |s| ==> IsDigit(s[k])
  }

  /** Decimal value of a digit string of one or two characters. */
  function SmallNumber(s: string): (n: nat)
    requires 1 <= |s| <= 2 && AllDigits(s)
    ensures n < 100
  {
    if |s| == 1 then DigitValue(s[0]) else 10 * DigitValue(s[0]) + DigitValue(s[1])
  }

  /** Reads a clock time: the hour field is one or two digits up to 23, the minute
      field exactly two digits up to 59; the value is hours * 60 + minutes. */
  function ParseTime(s: string): (r: Option<Minutes>)
    ensures r.Some? <==> MatchesTimePattern(s)
    ensures r.Some? ==> r.value < MinutesPerDay
    ensures r.Some? ==> r.value == 60 * SmallNumber(s[..|s| - 3]) + SmallNumber(s[|s| - 2..])
  {
    match ColonIndex(s)
    case None => None
    case Some(i) =>
      var h := s[..i];
      var m := s[i + 1..];
      if 1 <= |h| <= 2 && |m| == 2 && AllDigits(h) && AllDigits(m)
         && SmallNumber(h) <= 23 && SmallNumber(m) <= 59
      then Some(SmallNumber(h) * 60 + SmallNumber(m))
      else None
  }

  /** The canonical zero-padded rendering `HH:mm` of a time of day. */
  function TimeString(t: Minutes): (s: string)
    requires t < MinutesPerDay
    ensures |s| == 5 && s[2] == ':'
  {
    var h := t / 60;
    var m := t % 60;
    [DigitChar(h / 10), DigitChar(h % 10), ':', DigitChar(m / 10), DigitChar(m % 10)]
  }

  /** The rendering of a database TIME column, `HH:mm:ss`, with whole minutes. */
  function DbTimeString(t: Minutes): (s: string)
    requires t < MinutesPerDay
    ensures |s| == 8
  {
    TimeString(t) + ":00"
  }

  /** Every time of day renders to an accepted string that reads back as itself. */
  lemma ParseTimeString(t: Minutes)
    requires t < MinutesPerDay
    ensures MatchesTimePattern(TimeString(t))
    ensures ParseTime(TimeString(t)) == Some(t)
  {
    var s := TimeString(t);
    assert ColonIndex(s) == Some(2) by {
      assert s[0] != ':' && s[1] != ':';
      assert ColonIndex(s[1..]) == Some(1) by {
        assert s[1..][0] != ':';
        assert ColonIndex(s[2..]) == Some(0);
      }
    }
    assert s[..2] == [s[0], s[1]];
  }

  /** A digit character is the rendering of its value. */
  lemma DigitRoundTrip(c: char)
    requires IsDigit(c)
    ensures DigitChar(DigitValue(c)) == c
  {
  }

  /** A two-digit-hour string that is accepted is the canonical rendering of its value. */
  lemma TimeStringOfParse(s: string)
    requires |s| == 5 && ParseTime(s).Some?
    ensures TimeString(ParseTime(s).value) == s
  {
    assert ColonIndex(s) == Some(2) by {
      assert s[0] != ':' && s[1] != ':';
      assert ColonIndex(s[1..]) == Some(1) by {
        assert s[1..][0] != ':';
        assert ColonIndex(s[2..]) == Some(0);
      }
    }
    var hs, ms := s[..2], s[3..];
    assert hs[0] == s[0] && hs[1] == s[1] && ms[0] == s[3] && ms[1] == s[4];
    var h, m := SmallNumber(hs), SmallNumber(ms);
    var t := h * 60 + m;
    assert ParseTime(s) == Some(t);
    assert t / 60 == h && t % 60 == m;
    assert h / 10 == DigitValue(s[0]) && h % 10 == DigitValue(s[1]);
    assert m / 10 == DigitValue(s[3]) && m % 10 == DigitValue(s[4]);
    DigitRoundTrip(s[0]);
    DigitRoundTrip(s[1]);
    DigitRoundTrip(s[3]);
    DigitRoundTrip(s[4]);
  }

  /** A one-digit hour is accepted. */
  lemma OneDigitHourAccepted()
    ensures ParseTime("9:05") == Some(545)
  {
    assert ColonIndex("9:05") == Some(1) by {
      assert ColonIndex("9:05"[1..]) == Some(0);
    }
    assert "9:05"[..1] == "9" && "9:05"[2..] == "05";
  }

  /** A zero-padded hour reads as the same time. */
  lemma PaddedHourAccepted()
    ensures ParseTime("09:00") == Some(540)
  {
    ParseTimeString(540);
    assert TimeString(540) == "09:00";
  }

  /** Hour 24 and a one-digit minute are refused. */
  lemma RejectedTimeExamples()
    ensures ParseTime("24:00") == None
    ensures ParseTime("12:5") == None
  {
    assert !MatchesTimePattern("24:00") by {
      assert "24:00"[..2] == "24";
    }
  }

  // ---------------------------------------------------------------------------
  // helpers.ts: formatTime and calculateDuration.

  /** `formatTime`: an eight-character `HH:mm:ss` value loses its seconds; anything else
      is returned as given. */
  function FormatTime(t: string): (r: string)
    ensures |t| == 8 ==> |r| == 5 && r <= t
    ensures |t| != 8 ==> r == t
    ensures |r| != 8
  {
    if |t| == 8 then t[..5] else t
  }

  /** `formatTime` is idempotent. */
  lemma FormatTimeIdempotent(t: string)
    ensures FormatTime(FormatTime(t)) == FormatTime(t)
  {
  }

  /** A value read back from a TIME column formats to the `HH:mm` string that parses
      back to the same time of day. */
  lemma FormatDbTime(t: Minutes)
    requires t < MinutesPerDay
    ensures FormatTime(DbTimeString(t)) == TimeString(t)
    ensures ParseTime(FormatTime(DbTimeString(t))) == Some(t)
  {
    assert DbTimeString(t)[..5] == TimeString(t);
    ParseTimeString(t);
  }

  /** Length of the interval from `start` to `end` in hours (negative when `end`
      is earlier). */
  function Duration(start: Minutes, end: Minutes): (h: real)
    ensures h > 0.0 <==> end > start
    ensures h == 0.0 <==> end == start
    ensures h * 60.0 == (end as int - start as int) as real
  {
    (end as int - start as int) as real / 60.0
  }

  /** The text before a second ':', if any: `split(':')` hands only its first two pieces
      to the arithmetic, so a seconds field is ignored. */
  function HourMinutePart(s: string): (p: string)
    ensures p <= s
    ensures (forall i, j :: 0 <= i < j < |s| && s[i] == ':' ==> s[j] != ':') ==> p == s
    ensures (exists i, j :: 0 <= i < j < |s| && s[i] == ':' && s[j] == ':') ==> p != s
    ensures p != s ==>
              && s[|p|] == ':'
              && exists i :: 0 <= i < |p| && p[i] == ':' && forall k :: 0 <= k < |p| && k != i ==> p[k] != ':'
  {
    match ColonIndex(s)
    case None => s
    case Some(i) =>
      match ColonIndex(s[i + 1..])
      case None => s
      case Some(j) =>
        var p := s[..i + 1 + j];
        assert s[i + 1 + j] == s[i + 1..][j];
        assert forall k :: i < k < |p| ==> p[k] == s[i + 1..][k - i - 1];
        assert p[i] == ':';
        p
  }

  /** `calculateDuration`: the hours from `start` to `end`, reading each as hour and minute
      before any seconds; `None` where those are not a clock time (the source's `Number`
      conversion would give NaN or a coerced value there). */
  function CalculateDuration(start: string, end: string): (r: Option<real>)
    ensures r.Some? <==> MatchesTimePattern(HourMinutePart(start)) && MatchesTimePattern(HourMinutePart(end))
    ensures r.Some? ==>
              r.value * 60.0 == (ParseTime(HourMinutePart(end)).value as int
                                 - ParseTime(HourMinutePart(start)).value as int) as real
    ensures r.Some? ==> (r.value > 0.0 <==> ParseTime(HourMinutePart(end)).value > ParseTime(HourMinutePart(start)).value)
  {
    match (ParseTime(HourMinutePart(start)), ParseTime(HourMinutePart(end)))
    case (Some(s), Some(e)) => Some(Duration(s, e))
    case _ => None
  }

  /** Both renderings a time takes, `HH:mm` from a request and `HH:mm:ss` from a TIME
      column, are read as that time. */
  lemma HourMinuteOfRenderings(t: Minutes)
    requires t < MinutesPerDay
    ensures HourMinutePart(TimeString(t)) == TimeString(t)
    ensures HourMinutePart(DbTimeString(t)) == TimeString(t)
  {
    var s, d := TimeString(t), DbTimeString(t);
    assert ColonIndex(s) == Some(2) by {
      assert ColonIndex(s[1..]) == Some(1) by {
        assert s[1..][0] != ':';
        assert ColonIndex(s[2..]) == Some(0);
      }
    }
    assert ColonIndex(s[3..]) == None by {
      assert s[3..] == [s[3], s[4]];
    }
    assert d[..5] == s && d[5] == ':';
    assert ColonIndex(d) == Some(2) by {
      assert ColonIndex(d[1..]) == Some(1) by {
        assert d[1..][0] != ':';
        assert ColonIndex(d[2..]) == Some(0);
      }
    }
    assert ColonIndex(d[3..]) == Some(2) by {
      assert d[3..][0] != ':' && d[3..][1] != ':';
      assert ColonIndex(d[4..]) == Some(1) by {
        assert d[4..][0] != ':';
        assert ColonIndex(d[5..]) == Some(0);
      }
    }
  }

  /** The duration between two times is the same whether they come as `HH:mm` or as
      `HH:mm:ss`. */
  lemma DurationOfRenderings(a: Minutes, b: Minutes)
    requires a < MinutesPerDay && b < MinutesPerDay
    ensures CalculateDuration(TimeString(a), TimeString(b)) == Some(Duration(a, b))
    ensures CalculateDuration(DbTimeString(a), DbTimeString(b)) == Some(Duration(a, b))
  {
    HourMinuteOfRenderings(a);
    HourMinuteOfRenderings(b);
    ParseTimeString(a);
    ParseTimeString(b);
  }

  /** Durations over consecutive intervals add up. */
  lemma DurationAdditive(a: Minutes, b: Minutes, c: Minutes)
    ensures Duration(a, b) + Duration(b, c) == Duration(a, c)
  {
  }

  /** The price of an interval at an hourly rate: duration in hours times the rate. */
  function Price(start: Minutes, end: Minutes, rate: real): (p: real)
    ensures rate > 0.0 ==> (p > 0.0 <==> end > start)
    ensures rate >= 0.0 && end >= start ==> p >= 0.0
    ensures p * 60.0 == (end as int - start as int) as real * rate
  {
    var h := Duration(start, end);
    assert h * rate * 60.0 == (h * 60.0) * rate;
    h * rate
  }

  /** Prices over consecutive intervals add up. */
  lemma PriceAdditive(a: Minutes, b: Minutes, c: Minutes, rate: real)
    ensures Price(a, b, rate) + Price(b, c, rate) == Price(a, c, rate)
  {
    DurationAdditive(a, b, c);
    assert (Duration(a, b) + Duration(b, c)) * rate == Duration(a, b) * rate + Duration(b, c) * rate;
  }

  /** The prices of the sample bookings: two hours at 150000 and at 200000 an hour, and a
      half hour at 200000. */
  lemma SamplePrices()
    ensures Price(540, 660, 150000.0) == 300000.0
    ensures Price(840, 960, 200000.0) == 400000.0
    ensures Price(570, 600, 200000.0) == 100000.0
  {
  }
}

=== FILE: wrappers.dfy ===
/** Failure-carrying datatypes used in place of the source's thrown errors. */
module Wrappers {

  /** A value that may be absent (a SQL NULL, an optional request field, a missing row). */
  datatype Option<+T> = None | Some(value: T)

  /** The outcome of an operation that either returns a value or fails with an error. */
  datatype Result<+T, +E> = Success(value: T) | Failure(error: E)
}
